=== FILE: README.md ===
# vertx-postgresql-starter: the book repository and its REST layer, in Dafny

This project models the book service of vertx-postgresql-starter, a Vert.x
application that keeps books in a PostgreSQL table `book(id, title,
category, publication_date)` and serves them over HTTP.

- **Query builder** (`BookDatabaseServiceUtils`).
  - `generateDynamicQuery` appends ` AND <column> = $<n>` for each non-null field of a filter `Book`, in the order title, category, publication date.
  - `n` counts only the fields present so far.
  - The parameter list holds the values of those fields in the same order.
- **Result transformer** (`PgResultTransformer`).
  - `toJsonArray` turns each row of a result into a JSON object.
  - It skips null columns and renders dates as ISO text.
  - It renames `publication_date` to `publicationDate`.
- **Row collectors** (`RowCollectors`): the `Collector`s that map rows one by one into a `JsonArray` or a `List`.
- **Repository** (`BookDatabaseServiceImpl`).
  - Five SQL statements.
  - The row mapper of `BOOK_JSON_ARRAY_COLLECTOR`.
  - The five service operations (add, delete, get by id, filtered list, upsert), each completing its handler with a success or a failure.
- **Entity** (`Book`): a mutable record with getters, setters, a copy constructor, `equals` and `toString`.
- **REST handlers** (`BookApis`): what each endpoint answers for each way its service call ends.
- **Older HTTP layer** (`http.handler.GetBooksHandler` and `http.handler.FailureHandler`).
  - The list handler writes the status itself.
  - The failure handler maps an exception class to a status and a `{"message": …}` body.

How things are modelled:

- **Database.** The PostgreSQL table is a map from id to row held in the service class (`BookDatabaseService.table`).
  - The id-keyed statements are modelled by their effect on that map.
  - The filter `SELECT` is modelled by reading its ` AND col = $n` conditions back out of the SQL text and binding `$n` to the `n`-th parameter.
  - The store casts the text bound to `publication_date` to a date; a text that is no date fails the statement.
  - The theorem `FilterQueryMeansFilter` then states that the statement built from a filter selects exactly the rows matching that filter.
- **Parameters.** Two things the program cannot see are parameters of the model:
  - `scan`, the order in which the store returns rows. `GetBooks` requires it to list every key of the table exactly once (`IsTableScan`); the pure selection functions accept any sequence of keys;
  - `fault`, a connection or driver failure.
- **Behaviour.** Where the code's behaviour is easy to misread, the model follows the code:
  - The service's row mapper writes explicit `null`s: `put` with a null value keeps the key. Only `toJsonArray` omits null columns. `MapperKeepsNullDate` states the difference.
  - `Book` names its date field's JSON property `publicationdate` (Book.java:45-46), while the upsert reply writes `publicationDate` (BookApis.java:137) and the upsert handler's test sends a body with `publicationDate` (UpsertBookByIdHandlerTest.java:76-79). Body decoding is not part of this model, so whether that body decodes is not captured; the model's upsert example starts from a book already holding the three strings.
  - `deleteBookByIdHandler` answers 200, although the handler's test (DeleteBookByIdHandlerTest.java:67) expects 202.
  - The older list handler reads the date filter from the query parameter `publicationdate`. Because Vert.x compares query-parameter names without regard to case, this is the same parameter as `publicationDate`.
  - The service calls `book.getId()`, which `Book` does not declare; it is modelled as the book's `bookId`.

## Model

| member | source | states |
|---|---|---|
| Json.OptStr | src/main/java/com/billyyccc/database/impl/BookDatabaseServiceImpl.java:63-64 | a Java string becomes a JSON value that is null exactly when the string is null, and otherwise the JSON string with the same text |
| Json.Put | src/main/java/com/billyyccc/database/impl/BookDatabaseServiceImpl.java:62-70 | `put` either replaces one entry or appends one, so the object grows by at most one entry |
| Json.PutSpec | src/main/java/com/billyyccc/database/utils/PgResultTransformer.java:58 | `put` adds the key to the key set and makes it map to the new value. Every other key keeps its value, and keys stay distinct. The size grows by one exactly when the key was new. |
| Json.PutAppends | src/main/java/com/billyyccc/api/handler/BookApis.java:133-137 | `put` of a key the object lacks appends the entry at the end, in insertion order |
| Json.PutFour | src/main/java/com/billyyccc/database/impl/BookDatabaseServiceImpl.java:60-70 | four chained `put`s of distinct keys into an empty object give exactly those four entries, in call order |
| Json.GetAt | src/main/java/com/billyyccc/database/impl/BookDatabaseServiceImpl.java:60-70 | in an object with distinct keys, looking up any entry's key gives that entry's value |
| Decimal.IntToStringRoundTrip | src/main/java/com/billyyccc/api/handler/BookApis.java:82 | the decimal text of an int parses back to the same int |
| LocalDates.ParseIsoDate | src/main/java/com/billyyccc/database/impl/BookDatabaseServiceImpl.java:94 | `LocalDate.parse` rejects text shorter than `yyyy-mm-dd`; a date it yields is a valid calendar date whose month and day are the two-digit fields between and after the last two dashes |
| LocalDates.FormatIsoDate | src/main/java/com/billyyccc/database/utils/PgResultTransformer.java:81-83 | for years 0 to 9999, `ISO_DATE` text has the form `dddd-dd-dd` |
| LocalDates.ParseFormatRoundTrip | src/main/java/com/billyyccc/database/impl/BookDatabaseServiceImpl.java:65-70 | parsing the ISO text of any date gives that date back |
| LocalDates.FormatInjective | src/main/java/com/billyyccc/database/utils/PgResultTransformer.java:81-83 | two distinct dates never print the same text |
| Entity.Book.constructor | src/main/java/com/billyyccc/entity/Book.java:48-50 | a default book has id 0 and null title, category and date |
| Entity.Book.Copy | src/main/java/com/billyyccc/entity/Book.java:52-57 | the copy holds the other book's four fields |
| Entity.Book.Of | src/main/java/com/billyyccc/entity/Book.java:69-74 | the book holds the four given fields |
| Entity.Book.GetBookId | src/main/java/com/billyyccc/entity/Book.java:76-78 | the getter returns the book's id |
| Entity.Book.GetTitle | src/main/java/com/billyyccc/entity/Book.java:84-86 | the getter returns the title, null when it is null |
| Entity.Book.GetCategory | src/main/java/com/billyyccc/entity/Book.java:92-94 | the getter returns the category, null when it is null |
| Entity.Book.GetPublicationDate | src/main/java/com/billyyccc/entity/Book.java:101-103 | the getter returns the date text, null when it is null |
| Entity.Book.SetBookId | src/main/java/com/billyyccc/entity/Book.java:80-82 | the id getter returns the new id; the other fields are unchanged |
| Entity.Book.SetTitle | src/main/java/com/billyyccc/entity/Book.java:88-90 | the title getter returns the new title; the other fields are unchanged |
| Entity.Book.SetCategory | src/main/java/com/billyyccc/entity/Book.java:96-98 | the category getter returns the new category; the other fields are unchanged |
| Entity.Book.SetPublicationDate | src/main/java/com/billyyccc/entity/Book.java:105-107 | the date getter returns the new date; the other fields are unchanged |
| Entity.Book.Equals | src/main/java/com/billyyccc/entity/Book.java:109-117 | a non-`Book` is unequal. With non-null string fields, the result is true exactly when all four fields are equal. A `NullPointerException` happens only when a string field of this book is null. |
| Entity.EqualsReflexive | src/main/java/com/billyyccc/entity/Book.java:109-117 | a book with non-null fields equals itself |
| Entity.Book.ToString | src/main/java/com/billyyccc/entity/Book.java:129-137 | the text opens with the `bookid` label, and the id can be read back from it whatever the other fields are |
| BookDatabaseServiceUtils.EmptyJsonObject | src/main/java/com/billyyccc/database/utils/BookDatabaseServiceUtils.java:42-44 | the object has no keys and is empty |
| BookDatabaseServiceUtils.GenerateDynamicQuery | src/main/java/com/billyyccc/database/utils/BookDatabaseServiceUtils.java:47-75 | the step-by-step builder produces the query that the present fields determine |
| BookDatabaseServiceUtils.QueryConditions | src/main/java/com/billyyccc/database/utils/BookDatabaseServiceUtils.java:56-73 | the query is the base statement followed by one condition per present field, in the order title, category, date, numbered 1, 2, 3 without gaps. Parameter `i` is the value of the `i`-th present field. |
| BookDatabaseServiceUtils.ParseRender | src/main/java/com/billyyccc/database/utils/BookDatabaseServiceUtils.java:58-59 | the appended condition text reads back as the same columns and placeholder numbers |
| BookDatabaseServiceUtils.ParameterCount | src/main/java/com/billyyccc/database/utils/BookDatabaseServiceUtils.java:48-73 | the number of parameters equals the number of non-null filter fields |
| BookDatabaseServiceUtils.NoFilterIsRawQuery | src/main/java/com/billyyccc/database/utils/BookDatabaseServiceUtils.java:47-75 | an empty filter gives the base statement with no parameters |
| PgResultTransformer.ProcessLocalDate | src/main/java/com/billyyccc/database/utils/PgResultTransformer.java:81-83 | the ISO text parses back to the date |
| PgResultTransformer.ProcessType | src/main/java/com/billyyccc/database/utils/PgResultTransformer.java:68-79 | the result is always a JSON value. JSON values pass through unchanged, and a date becomes text that parses back to it. |
| PgResultTransformer.CoordinateKeys | src/main/java/com/billyyccc/database/utils/PgResultTransformer.java:96-101 | `publication_date` becomes `publicationDate`, so it is never a key itself; every other column name is kept as is |
| PgResultTransformer.CoordinateKeysIdempotent | src/main/java/com/billyyccc/database/utils/PgResultTransformer.java:96-101 | renaming twice is renaming once |
| PgResultTransformer.ToJsonArray | src/main/java/com/billyyccc/database/utils/PgResultTransformer.java:45-63 | one object per row, in row order, each being that row's object |
| PgResultTransformer.RowObjectKeys | src/main/java/com/billyyccc/database/utils/PgResultTransformer.java:49-59 | a row's keys are exactly the renamed non-null columns; no key repeats and every value is a JSON value |
| PgResultTransformer.NullColumnOmitted | src/main/java/com/billyyccc/database/utils/PgResultTransformer.java:52-55 | a key whose columns are all null is absent from the object |
| PgResultTransformer.RowObjectNoNulls | src/main/java/com/billyyccc/database/utils/PgResultTransformer.java:49-59 | when no column is null and no two columns rename to the same key, the object holds one entry per column, in column order, with the renamed key and the processed value |
| PgResultTransformer.RowObjectValue | src/main/java/com/billyyccc/database/utils/PgResultTransformer.java:51-58 | under a column's key is its processed value, or no entry when it is null |
| RowCollectors.Container.constructor | src/main/java/com/billyyccc/database/utils/RowCollectors.java:24 | the supplier gives an empty container |
| RowCollectors.Container.Add | src/main/java/com/billyyccc/database/utils/RowCollectors.java:25 | `add` appends one element |
| RowCollectors.Container.AddAll | src/main/java/com/billyyccc/database/utils/RowCollectors.java:27 | `addAll` appends the other container's elements, even when it is the same container |
| RowCollectors.MapRows | src/main/java/com/billyyccc/database/utils/RowCollectors.java:23-30 | the same length as the rows, and element `i` is the mapped row `i` |
| RowCollectors.Accumulate | src/main/java/com/billyyccc/database/utils/RowCollectors.java:25 | the accumulator appends the mapped row |
| RowCollectors.Combine | src/main/java/com/billyyccc/database/utils/RowCollectors.java:26-29 | the combiner returns the left container, holding left's elements followed by right's |
| RowCollectors.CollectInto | src/main/java/com/billyyccc/database/utils/RowCollectors.java:51-58 | collecting into a supplied list appends all mapped rows in order |
| RowCollectors.Collect | src/main/java/com/billyyccc/database/utils/RowCollectors.java:39-41 | a fresh collection holds exactly the mapped rows in order |
| RowCollectors.CollectSplit | src/main/java/com/billyyccc/database/utils/RowCollectors.java:26-29 | two collected halves joined by the combiner equal the sequential collection |
| RowCollectors.MapRowsAppend | src/main/java/com/billyyccc/database/utils/RowCollectors.java:26-29 | mapping distributes over concatenation |
| BookDatabaseServiceImpl.PublicationDateValue | src/main/java/com/billyyccc/database/impl/BookDatabaseServiceImpl.java:65-70 | the date column's JSON value is null when the column is null, and ISO text that parses back to the column's date when it holds a date |
| BookDatabaseServiceImpl.RowMapper | src/main/java/com/billyyccc/database/impl/BookDatabaseServiceImpl.java:59-72 | the object is exactly four entries, in the order id, title, category, publicationDate, with distinct keys. The first three carry the column values. The date is null when the column is null, and ISO text that parses back to the column's date when it holds a date. |
| BookDatabaseServiceImpl.BookJsonNotEmpty | src/main/java/com/billyyccc/database/impl/BookDatabaseServiceImpl.java:119-125 | a found row never maps to the empty object, so get-by-id's empty object means "no row" |
| BookDatabaseServiceImpl.BookJsonFields | src/main/java/com/billyyccc/database/impl/BookDatabaseServiceImpl.java:61-71 | each field of the row can be read back from the object; a null date is an explicit null |
| BookDatabaseServiceImpl.MapperAgreesWithTransformer | src/main/java/com/billyyccc/database/impl/BookDatabaseServiceImpl.java:59-72 | on a row without nulls, the row mapper gives the same object as `toJsonArray` |
| BookDatabaseServiceImpl.MapperAgreesOnRow | src/main/java/com/billyyccc/database/impl/BookDatabaseServiceImpl.java:59-72 | the same agreement for any driver row whose four columns hold non-null JSON values and a date |
| BookDatabaseServiceImpl.MapperKeepsNullDate | src/main/java/com/billyyccc/database/impl/BookDatabaseServiceImpl.java:68-70 | on a null date, the row mapper keeps `publicationDate: null` where `toJsonArray` omits the key |
| BookDatabaseServiceImpl.FilterQueryMeansFilter | src/main/java/com/billyyccc/database/impl/BookDatabaseServiceImpl.java:150-155 | the built filter statement selects exactly the table rows equal to every given field, in scan order. A date the store cannot cast fails with that text. |
| BookDatabaseServiceImpl.FilterBooksExactlyOnce | src/main/java/com/billyyccc/database/impl/BookDatabaseServiceImpl.java:150-158 | over a scan of the whole table, the selected rows are exactly the table rows matching the filter, and no id is listed twice |
| BookDatabaseServiceImpl.FilterBooksDistinct | src/main/java/com/billyyccc/database/impl/BookDatabaseServiceImpl.java:150-158 | a scan that visits no key twice selects no row twice |
| BookDatabaseServiceImpl.FilterBooksMembers | src/main/java/com/billyyccc/database/impl/BookDatabaseServiceImpl.java:155-158 | a row is listed exactly when it is in the table, reached by the scan and matches the filter |
| BookDatabaseServiceImpl.ParseLocalDate | src/main/java/com/billyyccc/database/impl/BookDatabaseServiceImpl.java:94 | `LocalDate.parse` throws a `NullPointerException` on null and a `DateTimeParseException` carrying the text on a text that is no ISO date; otherwise it gives the date the ISO parser reads |
| BookDatabaseServiceImpl.ParseLocalDateOfIsoText | src/main/java/com/billyyccc/database/impl/BookDatabaseServiceImpl.java:183 | the ISO text of any date parses back to that date |
| BookDatabaseServiceImpl.BookDatabaseService.constructor | src/main/java/com/billyyccc/database/impl/BookDatabaseServiceImpl.java:78-89 | the service wraps the given well-keyed table |
| BookDatabaseServiceImpl.BookDatabaseService.AddNewBook | src/main/java/com/billyyccc/database/impl/BookDatabaseServiceImpl.java:91-101 | a null or malformed date throws before any statement and changes nothing. A fault or an existing id fails and changes nothing. Otherwise the row is inserted. |
| BookDatabaseServiceImpl.BookDatabaseService.DeleteBookById | src/main/java/com/billyyccc/database/impl/BookDatabaseServiceImpl.java:103-112 | on success the id is removed, and a missing id is no error; a fault changes nothing |
| BookDatabaseServiceImpl.BookDatabaseService.UpsertBookById | src/main/java/com/billyyccc/database/impl/BookDatabaseServiceImpl.java:180-192 | the row under the path id becomes the book's fields, whether or not it existed; the body's own id is ignored. A bad date throws and a fault fails, both changing nothing. |
| BookDatabaseServiceImpl.BookDatabaseService.GetBookById | src/main/java/com/billyyccc/database/impl/BookDatabaseServiceImpl.java:114-130 | the result is the empty object when the id is absent, the mapped row when present, and a failure on a fault |
| BookDatabaseServiceImpl.BookDatabaseService.GetBooks | src/main/java/com/billyyccc/database/impl/BookDatabaseServiceImpl.java:148-164 | over a scan of the whole table, the result is the mapped rows matching the filter, in scan order. A bad date filter or a fault fails. |
| BookDatabaseServiceImpl.UpsertThenGet | src/main/java/com/billyyccc/database/impl/BookDatabaseServiceImpl.java:180-192 | on one service, `upsertBookById` followed by `getBookById` of the same id succeeds with the mapped upserted row, and every other id keeps its row or its absence |
| BookDatabaseServiceImpl.UpsertLastWriteWins | src/main/java/com/billyyccc/database/impl/BookDatabaseServiceImpl.java:180-192 | on one service, two `upsertBookById` calls of one id leave the table as if only the second had run, and `getBookById` then reads the second book |
| BookDatabaseServiceImpl.AddThenDelete | src/main/java/com/billyyccc/database/impl/BookDatabaseServiceImpl.java:91-112 | on one service, `addNewBook` of a new id followed by `deleteBookById` of that id both succeed and give back the table as it was |
| BookDatabaseServiceImpl.IsoDateExample | src/test/java/com/billyyccc/database/book/BookDatabaseServiceTest.java:115 | 2009-01-01 prints as `"2009-01-01"` |
| BookDatabaseServiceImpl.GetBookByIdExample | src/test/java/com/billyyccc/database/book/BookDatabaseServiceTest.java:110-116 | book 1 maps to the object the repository's test expects |
| BookDatabaseServiceImpl.GetBooksExample | src/main/java/com/billyyccc/database/impl/BookDatabaseServiceImpl.java:148-164 | a title filter over two books answers the one with that title |
| BookApis.QueryParam | src/main/java/com/billyyccc/api/handler/BookApis.java:99-101 | a value is found exactly when some parameter has that name, ignoring case, and it is the value of the first such parameter |
| BookApis.QueryParamIgnoresCase | src/main/java/com/billyyccc/api/handler/BookApis.java:99-101 | names differing only in ASCII case read the same parameter |
| BookApis.GetBooksFilter | src/main/java/com/billyyccc/api/handler/BookApis.java:98-101 | a fresh book with id 0 and the title, category and publicationDate parameters |
| BookApis.GetBooksReply | src/main/java/com/billyyccc/api/handler/BookApis.java:103-119 | no book is not-found, one is 200 with that object, more is 200 with the array, and a failure is a bad request |
| BookApis.GetBookByIdReply | src/main/java/com/billyyccc/api/handler/BookApis.java:78-88 | an empty object is not-found with the id in the message, any other object is 200, and a failure is a bad request |
| BookApis.DeleteBookByIdReply | src/main/java/com/billyyccc/api/handler/BookApis.java:64-67 | 200 with an empty body, or a bad request |
| BookApis.AddBookReply | src/main/java/com/billyyccc/api/handler/BookApis.java:50-53 | 200 with exactly the book's `toString` text, from which its id can be read, or a bad request |
| BookApis.UpsertEcho | src/main/java/com/billyyccc/api/handler/BookApis.java:133-138 | the echo has exactly the four keys id, title, category, publicationDate in that order |
| BookApis.UpsertBookByIdReply | src/main/java/com/billyyccc/api/handler/BookApis.java:126-141 | 200 echoing the path id and the body's fields, or a bad request |
| BookApis.GetBooksNotFoundIffNoMatch | src/main/java/com/billyyccc/api/handler/BookApis.java:106-109 | over a full scan, the list endpoint fails with not-found exactly when no row matches the filter |
| BookApis.GetBookByIdNotFoundIffAbsent | src/main/java/com/billyyccc/api/handler/BookApis.java:81-82 | over the repository, the by-id endpoint is not-found exactly when the id has no row |
| BookApis.UpsertEchoExample | src/test/java/com/billyyccc/api/book/UpsertBookByIdHandlerTest.java:55-80 | PUT /books/3 with a book holding the test's three strings answers the expected object, and that book (id 0) equals the book the mock expects |
| GetBooksHandler.Filter | src/main/java/com/billyyccc/http/handler/GetBooksHandler.java:49-52 | a fresh book with id 0 and the title, category and publicationdate parameters |
| GetBooksHandler.HandleResult | src/main/java/com/billyyccc/http/handler/GetBooksHandler.java:56-76 | the status is 404 for no book, 200 with the object for one, 200 with the array for more, and 400 on failure |
| GetBooksHandler.StatusAndBody | src/main/java/com/billyyccc/http/handler/GetBooksHandler.java:58-75 | the status is 200, 400 or 404, and there is a body exactly on 200 |
| GetBooksHandler.AgreesWithBookApis | src/main/java/com/billyyccc/http/handler/GetBooksHandler.java:49-75 | both list handlers read the same date parameter, succeed on the same results and send the same books |
| FailureHandler.ErrorBody | src/main/java/com/billyyccc/http/handler/FailureHandler.java:36-38 | the body's only key is `message`, holding the message (null stays null) |
| FailureHandler.Handle | src/main/java/com/billyyccc/http/handler/FailureHandler.java:20-34 | each exception class gets its status and message as the branches give them |
| FailureHandler.HandleTable | src/main/java/com/billyyccc/http/handler/FailureHandler.java:22-33 | the status is 400, 404 or 500 with a `message` body. It is 404 exactly for a missing resource and 500 exactly for other exceptions, and only those pass their own message on. |
| FailureHandler.ClientErrorsHideMessage | src/main/java/com/billyyccc/http/handler/FailureHandler.java:23-30 | a 400 response does not depend on the exception's message |

## Left out

- Verticles, configuration, process start-up, the connection pool and the PostgreSQL wire protocol. The database appears only as its effect on the table; a driver failure is the `fault` parameter.
- The constructor's start-up query (BookDatabaseServiceImpl.java:80-88) and whether it succeeds. The model's constructor only wraps a table.
- Logging.
- Concurrency. Each call is modelled as completing on its own, so no interleaving of asynchronous calls is modelled.
- The order in which PostgreSQL returns the rows of a `SELECT` is not fixed by SQL; it is the `scan` parameter, a duplicate-free listing of the table's keys.
- `Book.hashCode` is left out because it starts from `Object.hashCode`, an identity hash.
- The `Book(JsonObject)` constructor, `toJson` and the generated `BookConverter` are left out. They are not part of this model.
- Decoding the request body into a `Book`, and `Integer.valueOf` on the path id, are left out. The model's handlers take the decoded book and the id.
- `restResponse` headers are left out.
- The text rendering of JSON bodies (`toString` of objects and arrays) is left out; bodies are JSON values.
- URL decoding of query parameters is left out.
- PostgreSQL accepts date input formats other than ISO `yyyy-mm-dd`; the store's cast is modelled by the ISO parser only.
- `processLocalDateTime` and `processUUID` are left out: timestamp and UUID values carry their library rendering as text.
- Calls to `getInteger` or `getString` on a column of another type (a `ClassCastException`) are left out.
- BookDatabaseServiceImpl.PublicationDateValue: `getLocalDate` on a non-null column of another type throws a `ClassCastException`; the model writes null there instead, so its contract speaks only of null and date columns.
- Book ids are 32-bit (`int32`). Nothing in the model overflows, so no wrap-around is modelled.
- `api.handler.FailureHandler`, the failure handler wired to `BookApis`, is not part of this model. The handlers' replies end at the exception they fail with.
- The thin handlers of the older HTTP layer other than `GetBooksHandler` are not part of this model.
- FailureHandler.Handle: a null `routingContext.failure()`, as after `fail(int)`, is not modelled; FailureHandler.java:32 would then throw a `NullPointerException`. No verticle of the repository installs this handler.
- Entity.Book.ToString: only the id is proved readable back from the text. The title, category and date are free text that may contain the template's quote and comma characters.
- FailureHandler.Handle: an exception is modelled by a single class. The four classes it tests are unrelated, so at most one of them can match.

=== FILE: book.dfy ===
/**
 * The `Book` entity: a mutable record with four fields, three of them
 * nullable strings. The id is a Java `int`.
 */
module Entity {
  import opened Wrappers
  import opened Decimal

  type int32 = x: int | -0x8000_0000 <= x < 0x8000_0000

  /** What `equals` does: return a boolean, or throw a NullPointerException. */
  datatype EqualsOutcome = Returns(result: bool) | ThrowsNullPointer

  class Book {
    var bookId: int32
    var title: Option<string>
    var category: Option<string>
    var publicationDate: Option<string>

    /** `new Book()`: Java's default field values. */
    constructor ()
      ensures bookId == 0 && title == None && category == None && publicationDate == None
    {
      bookId := 0;
      title := None;
      category := None;
      publicationDate := None;
    }

    /** `new Book(Book other)`: a copy of the four fields. */
    constructor Copy(other: Book)
      ensures bookId == other.bookId && title == other.title
      ensures category == other.category && publicationDate == other.publicationDate
    {
      bookId := other.bookId;
      title := other.title;
      category := other.category;
      publicationDate := other.publicationDate;
    }

    /** `new Book(bookId, title, category, publicationDate)`. */
    constructor Of(bookId: int32, title: Option<string>, category: Option<string>, publicationDate: Option<string>)
      ensures this.bookId == bookId && this.title == title
      ensures this.category == category && this.publicationDate == publicationDate
    {
      this.bookId := bookId;
      this.title := title;
      this.category := category;
      this.publicationDate := publicationDate;
    }

    /** The four getters: each returns its field unchanged (a null field as null). */
    function GetBookId(): (id: int32)
      reads this
      ensures id == bookId
    {
      bookId
    }

    function GetTitle(): (t: Option<string>)
      reads this
      ensures t == title
    {
      title
    }

    function GetCategory(): (c: Option<string>)
      reads this
      ensures c == category
    {
      category
    }

    function GetPublicationDate(): (d: Option<string>)
      reads this
      ensures d == publicationDate
    {
      publicationDate
    }

    method SetBookId(bookId: int32)
      modifies this
      ensures GetBookId() == bookId
      ensures title == old(title) && category == old(category) && publicationDate == old(publicationDate)
    {
      this.bookId := bookId;
    }

    method SetTitle(title: Option<string>)
      modifies this
      ensures GetTitle() == title
      ensures bookId == old(bookId) && category == old(category) && publicationDate == old(publicationDate)
    {
      this.title := title;
    }

    method SetCategory(category: Option<string>)
      modifies this
      ensures GetCategory() == category
      ensures bookId == old(bookId) && title == old(title) && publicationDate == old(publicationDate)
    {
      this.category := category;
    }

    method SetPublicationDate(publicationDate: Option<string>)
      modifies this
      ensures GetPublicationDate() == publicationDate
      ensures bookId == old(bookId) && title == old(title) && category == old(category)
    {
      this.publicationDate := publicationDate;
    }

    /**
     * `equals(Object obj)`. The four comparisons run left to right and stop
     * at the first difference; `this.title.equals(…)` and the two after it
     * throw when this book's field is null.
     */
    function Equals(obj: object?): (r: EqualsOutcome)
      reads this, obj
      ensures !(obj is Book) ==> r == Returns(false)
      ensures title.Some? && category.Some? && publicationDate.Some? && obj is Book ==>
        r == Returns(
          var other := obj as Book;
          && bookId == other.bookId && title == other.title
          && category == other.category && publicationDate == other.publicationDate)
      ensures r == ThrowsNullPointer ==> title.None? || category.None? || publicationDate.None?
    {
      if !(obj is Book) then Returns(false)
      else
        var other := obj as Book;
        if bookId != other.bookId then Returns(false)
        else if title.None? then ThrowsNullPointer
        else if title != other.title then Returns(false)
        else if category.None? then ThrowsNullPointer
        else if category != other.category then Returns(false)
        else if publicationDate.None? then ThrowsNullPointer
        else Returns(publicationDate == other.publicationDate)
    }

    /**
     * `toString()`: the fixed template; a null string field prints as `null`.
     * The text opens with the `bookid` label, and the id can be read back
     * from it whatever the other fields hold.
     */
    function ToString(): (text: string)
      reads this
      ensures BookIdLabel <= text
      ensures BookIdOf(text) == Some(bookId as int)
    {
      var digits := IntToString(bookId);
      var rest := FieldsAfterId(title, category, publicationDate);
      LabelPieces(BookIdLabel, digits, rest);
      FieldsAfterIdStartsWithComma(title, category, publicationDate);
      IntToStringHasNoComma(bookId);
      UpToCommaStops(digits, rest);
      IntToStringRoundTrip(bookId);
      BookIdLabel + digits + rest
    }
  }

  /** How string concatenation renders a possibly null `String`. */
  function JavaText(s: Option<string>): string {
    match s
    case None => "null"
    case Some(t) => t
  }

  const BookIdLabel: string := "{\n    \"bookid\": "

  /** The rest of the `toString()` template, from the comma after the id. */
  function FieldsAfterId(title: Option<string>, category: Option<string>, publicationDate: Option<string>): string {
    ",\n" +
    "    \"title\": \"" + JavaText(title) + "\",\n" +
    "    \"category\": \"" + JavaText(category) + "\",\n" +
    "    \"publicationdate\": \"" + JavaText(publicationDate) + "\"\n" +
    "}"
  }

  /** Everything before the first comma. */
  function UpToComma(s: string): (r: string)
    ensures r <= s
  {
    if s == [] || s[0] == ',' then [] else [s[0]] + UpToComma(s[1..])
  }

  /** Reads the `bookid` value back out of a `toString()` text. */
  function BookIdOf(text: string): Option<int> {
    if BookIdLabel <= text then ParseInt(UpToComma(text[|BookIdLabel|..])) else None
  }

  lemma {:induction false} UpToCommaStops(d: string, rest: string)
    requires forall i :: 0 <= i < |d| ==> d[i] != ','
    requires |rest| > 0 && rest[0] == ','
    ensures UpToComma(d + rest) == d
  {
    if d != [] {
      assert (d + rest)[1..] == d[1..] + rest;
      UpToCommaStops(d[1..], rest);
    } else {
      assert d + rest == rest;
    }
  }

  lemma IntToStringHasNoComma(i: int)
    ensures forall k :: 0 <= k < |IntToString(i)| ==> IntToString(i)[k] != ','
  {
    var s := IntToString(i);
    if i < 0 {
      assert forall k :: 1 <= k < |s| ==> s[k] == NatToDigits(-i)[k - 1];
    }
  }

  lemma LabelPieces(prefix: string, digits: string, rest: string)
    ensures prefix <= prefix + digits + rest
    ensures (prefix + digits + rest)[|prefix|..] == digits + rest
  {
  }

  lemma FieldsAfterIdStartsWithComma(title: Option<string>, category: Option<string>, publicationDate: Option<string>)
    ensures |FieldsAfterId(title, category, publicationDate)| > 0 && FieldsAfterId(title, category, publicationDate)[0] == ','
  {
  }

  /** `equals` is reflexive on a book whose string fields are set. */
  lemma EqualsReflexive(b: Book)
    requires b.title.Some? && b.category.Some? && b.publicationDate.Some?
    ensures b.Equals(b) == Returns(true)
  {
  }
}

=== FILE: book_apis.dfy ===
/**
 * The REST handlers of the book API: what each one answers for each way
 * the service call can end. A handler either writes a response (status and
 * body) or fails the routing context with an exception, which the API's
 * failure handler turns into a response.
 */
module BookApis {
  import opened Wrappers
  import opened Decimal
  import opened Json
  import opened Entity
  import opened BookDatabaseServiceUtils
  import opened BookDatabaseServiceImpl
  import opened RowCollectors

  /** The exceptions a handler passes to `routingContext.fail`. */
  datatype ApiException = ResourceNotFound(message: string) | BadRequest(cause: Cause)

  /** A response body: text as written, or the JSON value whose `toString()` is written. */
  datatype Body = Text(text: string) | Object(o: JsonObject) | Array(a: seq<JsonObject>)

  datatype Reply = Respond(status: int, body: Body) | Fail(exception: ApiException)

  // ---------------------------------------------------------------------
  // Query parameters.

  /** The query parameters of a request, in the order they appear. */
  type QueryParams = seq<(string, string)>

  function LowerAscii(c: char): char {
    if 'A' <= c <= 'Z' then (c as int + 32) as char else c
  }

  /** Names of query parameters compare ignoring the case of ASCII letters. */
  predicate SameName(a: string, b: string) {
    |a| == |b| && forall i :: 0 <= i < |a| ==> LowerAscii(a[i]) == LowerAscii(b[i])
  }

  /** `queryParams().get(name)`: the first value under that name, or null. */
  function QueryParam(params: QueryParams, name: string): (v: Option<string>)
    ensures v.Some? <==> exists i :: 0 <= i < |params| && SameName(params[i].0, name)
    ensures v.Some? ==> exists i :: 0 <= i < |params| && SameName(params[i].0, name) && v.value == params[i].1 &&
                                    (forall j :: 0 <= j < i ==> !SameName(params[j].0, name))
  {
    if params == [] then None
    else if SameName(params[0].0, name) then Some(params[0].1)
    else
      var v := QueryParam(params[1..], name);
      assert forall i :: 1 <= i < |params| ==> params[i] == params[1..][i - 1];
      v
  }

  /** Two names that differ only in the case of ASCII letters read the same parameter. */
  lemma {:induction false} QueryParamIgnoresCase(params: QueryParams, a: string, b: string)
    requires SameName(a, b)
    ensures QueryParam(params, a) == QueryParam(params, b)
    decreases |params|
  {
    if params != [] {
      var n := params[0].0;
      assert SameName(n, a) <==> SameName(n, b);
      QueryParamIgnoresCase(params[1..], a, b);
    }
  }

  /**
   * The filter of `getBooksHandler`: a default book whose title, category
   * and publication date are the parameters `title`, `category` and
   * `publicationDate`; the id stays 0.
   */
  method GetBooksFilter(params: QueryParams) returns (book: Book)
    ensures fresh(book)
    ensures book.bookId == 0
    ensures book.title == QueryParam(params, "title")
    ensures book.category == QueryParam(params, "category")
    ensures book.publicationDate == QueryParam(params, "publicationDate")
  {
    book := new Book();
    book.SetTitle(QueryParam(params, "title"));
    book.SetCategory(QueryParam(params, "category"));
    book.SetPublicationDate(QueryParam(params, "publicationDate"));
  }

  // ---------------------------------------------------------------------
  // Replies.

  const BooksNotFoundMessage: string := "The books have not been found"

  /**
   * `getBooksHandler`: no book is not-found, one book is answered as that
   * object alone, more as the whole array; a failed call is a bad request.
   */
  function GetBooksReply(r: AsyncResult<seq<JsonObject>>): (reply: Reply)
    ensures r.Failed? ==> reply == Fail(BadRequest(r.cause))
    ensures r.Succeeded? && |r.result| == 0 ==> reply == Fail(ResourceNotFound(BooksNotFoundMessage))
    ensures r.Succeeded? && |r.result| == 1 ==> reply == Respond(200, Object(r.result[0]))
    ensures r.Succeeded? && |r.result| >= 2 ==> reply == Respond(200, Array(r.result))
    ensures reply.Respond? ==> reply.status == 200
  {
    match r
    case Failed(cause) => Fail(BadRequest(cause))
    case Succeeded(books) =>
      if |books| == 0 then Fail(ResourceNotFound(BooksNotFoundMessage))
      else if |books| == 1 then Respond(200, Object(books[0]))
      else Respond(200, Array(books))
  }

  /** The not-found message of `getBookByIdHandler`, which carries the id. */
  function BookNotFoundMessage(bookId: int32): string {
    "The book with id " + IntToString(bookId) + " can not be found"
  }

  /** `getBookByIdHandler`: an empty object from the service is not-found, any other object is answered. */
  function GetBookByIdReply(bookId: int32, r: AsyncResult<JsonObject>): (reply: Reply)
    ensures r.Failed? ==> reply == Fail(BadRequest(r.cause))
    ensures r.Succeeded? && IsEmpty(r.result) ==> reply == Fail(ResourceNotFound(BookNotFoundMessage(bookId)))
    ensures r.Succeeded? && !IsEmpty(r.result) ==> reply == Respond(200, Object(r.result))
  {
    match r
    case Failed(cause) => Fail(BadRequest(cause))
    case Succeeded(dbResponse) =>
      if IsEmpty(dbResponse) then Fail(ResourceNotFound(BookNotFoundMessage(bookId)))
      else Respond(200, Object(dbResponse))
  }

  /** `deleteBookByIdHandler`: 200 with an empty body, whether or not the row existed. */
  function DeleteBookByIdReply(r: AsyncResult<()>): (reply: Reply)
    ensures r.Succeeded? ==> reply == Respond(200, Text(""))
    ensures r.Failed? ==> reply == Fail(BadRequest(r.cause))
  {
    match r
    case Succeeded(_) => Respond(200, Text(""))
    case Failed(cause) => Fail(BadRequest(cause))
  }

  /** `addBookHandler`: 200 with the book's `toString()`. */
  function AddBookReply(book: Book, r: AsyncResult<()>): (reply: Reply)
    reads book
    ensures r.Succeeded? ==> reply == Respond(200, Text(book.ToString()))
    ensures r.Succeeded? ==> BookIdOf(reply.body.text) == Some(book.bookId as int)
    ensures r.Failed? ==> reply == Fail(BadRequest(r.cause))
  {
    match r
    case Succeeded(_) => Respond(200, Text(book.ToString()))
    case Failed(cause) => Fail(BadRequest(cause))
  }

  /** The body `upsertBookByIdHandler` echoes: the path id and the three fields of the request body. */
  function UpsertEcho(bookId: int32, title: Option<string>, category: Option<string>, publicationDate: Option<string>): (o: JsonObject)
    ensures o == [Entry("id", Int(bookId)), Entry("title", OptStr(title)),
                  Entry("category", OptStr(category)), Entry("publicationDate", OptStr(publicationDate))]
  {
    var e1 := Entry("id", Int(bookId));
    var e2 := Entry("title", OptStr(title));
    var e3 := Entry("category", OptStr(category));
    var e4 := Entry("publicationDate", OptStr(publicationDate));
    PutFour(e1, e2, e3, e4);
    Put(Put(Put(Put(EmptyJsonObject(), e1.key, e1.value), e2.key, e2.value), e3.key, e3.value), e4.key, e4.value)
  }

  /** `upsertBookByIdHandler`: 200 echoing the path id, never the id inside the body. */
  function UpsertBookByIdReply(bookId: int32, book: Book, r: AsyncResult<()>): (reply: Reply)
    reads book
    ensures r.Succeeded? ==>
      reply == Respond(200, Object(UpsertEcho(bookId, book.title, book.category, book.publicationDate)))
    ensures r.Succeeded? ==> Get(reply.body.o, "id") == Some(Int(bookId))
    ensures r.Failed? ==> reply == Fail(BadRequest(r.cause))
  {
    match r
    case Succeeded(_) => Respond(200, Object(UpsertEcho(bookId, book.title, book.category, book.publicationDate)))
    case Failed(cause) => Fail(BadRequest(cause))
  }

  // ---------------------------------------------------------------------
  // The handlers over the repository.

  /**
   * Over a scan that visits every key, the list endpoint answers not-found
   * exactly when no row of the table matches the filter.
   */
  lemma GetBooksNotFoundIffNoMatch(table: Table, scan: seq<int32>, title: Option<string>, category: Option<string>,
                                   publicationDate: Option<LocalDates.Date>)
    requires WellKeyed(table)
    requires forall id :: id in table ==> id in scan
    ensures var rows := FilterBooks(table, scan, title, category, publicationDate);
      GetBooksReply(Succeeded(MapRows(BookJson, rows))).Fail?
      <==> forall id :: id in table ==> !Matches(table[id], title, category, publicationDate)
  {
    var rows := FilterBooks(table, scan, title, category, publicationDate);
    if rows != [] {
      FilterBooksMembers(table, scan, title, category, publicationDate, rows[0]);
      assert rows[0] in rows;
    }
    forall id | id in table && Matches(table[id], title, category, publicationDate)
      ensures rows != []
    {
      FilterBooksMembers(table, scan, title, category, publicationDate, table[id]);
    }
  }

  /** The by-id endpoint, over the repository, answers not-found exactly when the id has no row. */
  lemma GetBookByIdNotFoundIffAbsent(table: Table, bookId: int32)
    ensures var dbResponse := if bookId in table then BookJson(table[bookId]) else EmptyJsonObject();
      GetBookByIdReply(bookId, Succeeded(dbResponse)) == Fail(ResourceNotFound(BookNotFoundMessage(bookId)))
      <==> bookId !in table
  {
    if bookId in table {
      BookJsonNotEmpty(table[bookId]);
    }
  }

  /**
   * The upsert test: the path id 3 and a book without id answer the book's
   * fields under id 3. A default book holding the test's three strings
   * keeps id 0, so it equals the book the service mock expects.
   */
  method UpsertEchoExample() returns (reply: Reply, matchesMock: EqualsOutcome)
    ensures reply == Respond(200, Object([
      Entry("id", Int(3)), Entry("title", Str("Java Concurrency in Practice")),
      Entry("category", Str("java")), Entry("publicationDate", Str("2006-05-19"))]))
    ensures matchesMock == Returns(true)
  {
    var book := new Book();
    book.SetTitle(Some("Java Concurrency in Practice"));
    book.SetCategory(Some("java"));
    book.SetPublicationDate(Some("2006-05-19"));
    var expected := new Book.Of(0, Some("Java Concurrency in Practice"), Some("java"), Some("2006-05-19"));
    matchesMock := book.Equals(expected);
    reply := UpsertBookByIdReply(3, book, Succeeded(()));
  }
}

=== FILE: book_database_service.dfy ===
/**
 * The book repository: five SQL statements over the `book` table, the row
 * mapper that turns a table row into a JSON object, and the service class
 * whose operations complete with a success or a failure carrying the cause.
 *
 * The database is modelled by its effect on the table, a map from id to row
 * (`id` is the primary key). The filter SELECT is modelled by reading the
 * ` AND <column> = $<n>` conditions back out of its text and binding `$n`
 * to parameter `n`; the store casts the text bound to `publication_date` to
 * a date. The order in which the store scans the table is not fixed by SQL;
 * it is a parameter (`scan`). A failure of the connection pool or driver is
 * a parameter too (`fault`).
 */
module BookDatabaseServiceImpl {
  import opened Wrappers
  import opened LocalDates
  import opened Decimal
  import opened Json
  import opened Entity
  import opened BookDatabaseServiceUtils
  import opened PgResultTransformer
  import opened RowCollectors

  const SqlAddNewBook: string := "INSERT INTO book VALUES ($1, $2, $3, $4)"
  const SqlDeleteBookById: string := "DELETE FROM book WHERE id = $1"
  const SqlFindBookById: string := "SELECT * FROM book WHERE id = $1"
  const SqlUpsertBookById: string := "INSERT INTO book VALUES($1, $2, $3, $4) ON CONFLICT(id) DO UPDATE SET title = $2, category = $3, publication_date = $4"
  const SqlFindAllBooks: string := "SELECT * FROM book WHERE TRUE"

  // ---------------------------------------------------------------------
  // The table.

  /** A row of `book(id, title, category, publication_date)`. */
  datatype BookRow = BookRow(id: int32, title: Option<string>, category: Option<string>, publicationDate: Option<LocalDates.Date>)

  type Table = map<int32, BookRow>

  /** Every row sits under its own primary key. */
  predicate WellKeyed(table: Table) {
    forall id :: id in table ==> table[id].id == id
  }

  const BookColumns: seq<string> := ["id", "title", "category", "publication_date"]

  /** The row as the driver presents it: column name to value. */
  function AsPgRow(r: BookRow): Row {
    map[
      "id" := Int(r.id),
      "title" := OptStr(r.title),
      "category" := OptStr(r.category),
      "publication_date" := match r.publicationDate case None => Null case Some(d) => Json.Date(d)]
  }

  /** What the driver returns for each column of a row. */
  lemma AsPgRowValues(r: BookRow)
    ensures GetValue(AsPgRow(r), "id") == Int(r.id)
    ensures GetValue(AsPgRow(r), "title") == OptStr(r.title)
    ensures GetValue(AsPgRow(r), "category") == OptStr(r.category)
    ensures GetValue(AsPgRow(r), "publication_date")
      == match r.publicationDate case None => Null case Some(d) => Json.Date(d)
  {
  }

  /** The four columns keep four different names after renaming. */
  lemma BookColumnKeysDistinct()
    ensures forall i, j :: 0 <= i < j < |BookColumns| ==> CoordinateKeys(BookColumns[i]) != CoordinateKeys(BookColumns[j])
  {
    assert CoordinateKeys(BookColumns[0]) == "id";
    assert CoordinateKeys(BookColumns[1]) == "title";
    assert CoordinateKeys(BookColumns[2]) == "category";
    assert CoordinateKeys(BookColumns[3]) == "publicationDate";
  }

  /** Why a statement or a call failed. */
  datatype Cause =
    | ConnectionFailure(message: string)
    | UniqueViolation(id: int32)
    | SyntaxError
    | BindMismatch
    | InvalidDateText(text: string)

  /** A filter condition after binding: the column must equal the bound value (never true on NULL). */
  datatype Predicate = TitleIs(title: string) | CategoryIs(category: string) | PublicationDateIs(date: LocalDates.Date)

  predicate Holds(row: BookRow, p: Predicate) {
    match p
    case TitleIs(t) => row.title == Some(t)
    case CategoryIs(c) => row.category == Some(c)
    case PublicationDateIs(d) => row.publicationDate == Some(d)
  }

  predicate AllHold(row: BookRow, ps: seq<Predicate>) {
    forall i :: 0 <= i < |ps| ==> Holds(row, ps[i])
  }

  /** The rows the scan visits, in scan order, that are in the table and satisfy every predicate. */
  function SelectMatching(table: Table, scan: seq<int32>, preds: seq<Predicate>): (rows: seq<BookRow>)
    ensures |rows| <= |scan|
  {
    if scan == [] then []
    else
      var rest := SelectMatching(table, scan[1..], preds);
      if scan[0] in table && AllHold(table[scan[0]], preds) then [table[scan[0]]] + rest else rest
  }

  /** Binding a text parameter to a column; `publication_date` casts it to a date. */
  function BindOne(column: Column, text: string): Result<Predicate, Cause> {
    match column
    case Title => Success(TitleIs(text))
    case Category => Success(CategoryIs(text))
    case PublicationDate =>
      match ParseIsoDate(text)
      case None => Failure(InvalidDateText(text))
      case Some(d) => Success(PublicationDateIs(d))
  }

  /** Binding every placeholder of the statement, left to right. */
  function Bind(ps: seq<Placeholder>, params: seq<string>): Result<seq<Predicate>, Cause> {
    if ps == [] then Success([])
    else if !(1 <= ps[0].index <= |params|) then Failure(BindMismatch)
    else match BindOne(ps[0].column, params[ps[0].index - 1])
      case Failure(e) => Failure(e)
      case Success(p) =>
        match Bind(ps[1..], params)
        case Failure(e) => Failure(e)
        case Success(rest) => Success([p] + rest)
  }

  /** The number of parameters a prepared statement expects: its highest placeholder number. */
  function HighestIndex(ps: seq<Placeholder>): nat {
    if ps == [] then 0
    else
      var rest := HighestIndex(ps[1..]);
      if ps[0].index > rest then ps[0].index else rest
  }

  /** `SELECT * FROM book WHERE TRUE` followed by conditions, run with `params`. */
  function ExecuteSelect(table: Table, scan: seq<int32>, sql: string, params: seq<string>): Result<seq<BookRow>, Cause> {
    if !(SqlFindAllBooks <= sql) then Failure(SyntaxError)
    else match ParseConditions(sql[|SqlFindAllBooks|..])
      case None => Failure(SyntaxError)
      case Some(ps) =>
        if HighestIndex(ps) != |params| then Failure(BindMismatch)
        else match Bind(ps, params)
          case Failure(e) => Failure(e)
          case Success(preds) => Success(SelectMatching(table, scan, preds))
  }

  /** `SELECT * FROM book WHERE id = $1`: the row with that key, if any. */
  function SelectById(table: Table, id: int32): seq<BookRow> {
    if id in table then [table[id]] else []
  }

  // ---------------------------------------------------------------------
  // The row mapper of BOOK_JSON_ARRAY_COLLECTOR.

  /** The JSON value of the `publication_date` column: its ISO text, or an explicit null. */
  function PublicationDateValue(row: Row): (v: Value)
    ensures v == Null <==> !GetValue(row, "publication_date").Date?
    ensures GetValue(row, "publication_date").Date? ==>
      v.Str? && ParseIsoDate(v.s) == Some(GetValue(row, "publication_date").date)
  {
    match GetValue(row, "publication_date")
    case Date(d) =>
      ParseFormatRoundTrip(d);
      Str(FormatIsoDate(d))
    case _ => Null
  }

  /**
   * The row mapper: four `put`s in the order id, title, category,
   * publicationDate, each of them made whether the column is null or not.
   */
  function RowMapper(row: Row): (o: JsonObject)
    ensures o == [Entry("id", GetValue(row, "id")), Entry("title", GetValue(row, "title")),
                  Entry("category", GetValue(row, "category")), Entry("publicationDate", PublicationDateValue(row))]
    ensures DistinctKeys(o)
    ensures o[3].value == Null <==> !GetValue(row, "publication_date").Date?
    ensures GetValue(row, "publication_date").Date? ==>
      o[3].value.Str? && ParseIsoDate(o[3].value.s) == Some(GetValue(row, "publication_date").date)
  {
    var e1 := Entry("id", GetValue(row, "id"));
    var e2 := Entry("title", GetValue(row, "title"));
    var e3 := Entry("category", GetValue(row, "category"));
    var e4 := Entry("publicationDate", PublicationDateValue(row));
    PutFour(e1, e2, e3, e4);
    Put(Put(Put(Put(EmptyJsonObject(), e1.key, e1.value), e2.key, e2.value), e3.key, e3.value), e4.key, e4.value)
  }

  /** The mapper applied to a row of the table. */
  function BookJson(r: BookRow): JsonObject {
    RowMapper(AsPgRow(r))
  }

  /** A mapped book row never is the empty object. */
  lemma BookJsonNotEmpty(r: BookRow)
    ensures !IsEmpty(BookJson(r))
  {
  }

  /**
   * The mapper writes the fields of the row back: the id, the two strings
   * (null as null), and the date as text that parses to the same date, or
   * null.
   */
  lemma BookJsonFields(r: BookRow)
    ensures Get(BookJson(r), "id") == Some(Int(r.id))
    ensures Get(BookJson(r), "title") == Some(OptStr(r.title))
    ensures Get(BookJson(r), "category") == Some(OptStr(r.category))
    ensures r.publicationDate.None? ==> Get(BookJson(r), "publicationDate") == Some(Null)
    ensures r.publicationDate.Some? ==>
      var v := Get(BookJson(r), "publicationDate");
      v.Some? && v.value.Str? && ParseIsoDate(v.value.s) == r.publicationDate
  {
    var row := AsPgRow(r);
    AsPgRowValues(r);
    var o := RowMapper(row);
    GetAt(o, 0);
    GetAt(o, 1);
    GetAt(o, 2);
    GetAt(o, 3);
  }

  /** The mapper and `toJsonArray` agree on a row with no null column. */
  lemma MapperAgreesWithTransformer(r: BookRow)
    requires r.title.Some? && r.category.Some? && r.publicationDate.Some?
    ensures BookJson(r) == RowObject(BookColumns, AsPgRow(r))
  {
    AsPgRowValues(r);
    MapperAgreesOnRow(AsPgRow(r));
  }

  /** The same agreement for any driver row whose four columns hold JSON values and a date. */
  lemma MapperAgreesOnRow(row: Row)
    requires IsJsonType(GetValue(row, "id")) && GetValue(row, "id") != Null
    requires IsJsonType(GetValue(row, "title")) && GetValue(row, "title") != Null
    requires IsJsonType(GetValue(row, "category")) && GetValue(row, "category") != Null
    requires GetValue(row, "publication_date").Date?
    ensures RowMapper(row) == RowObject(BookColumns, row)
  {
    BookColumnKeysDistinct();
    RowObjectNoNulls(BookColumns, row);
    var es := ColumnEntries(BookColumns, row);
    assert es[0] == Entry("id", GetValue(row, "id"));
    assert es[1] == Entry("title", GetValue(row, "title"));
    assert es[2] == Entry("category", GetValue(row, "category"));
    assert es[3] == Entry("publicationDate", PublicationDateValue(row));
    SeqOfFour(es);
  }

  lemma SeqOfFour<T>(s: seq<T>)
    requires |s| == 4
    ensures s == [s[0], s[1], s[2], s[3]]
  {
  }

  /**
   * On a row whose date is null, the mapper keeps `publicationDate` (as
   * null) where `toJsonArray` leaves the key out.
   */
  lemma MapperKeepsNullDate(r: BookRow)
    requires r.publicationDate.None?
    ensures Get(BookJson(r), "publicationDate") == Some(Null)
    ensures Get(RowObject(BookColumns, AsPgRow(r)), "publicationDate") == None
  {
    BookJsonFields(r);
    var row := AsPgRow(r);
    AsPgRowValues(r);
    forall c | c in BookColumns && CoordinateKeys(c) == "publicationDate"
      ensures GetValue(row, c) == Null
    {
      assert c == "publication_date";
    }
    NullColumnOmitted(BookColumns, row, "publicationDate");
  }

  // ---------------------------------------------------------------------
  // What the filter means, and the theorem that the built query means it.

  /** The filter as the caller intends it: each given field must match; a date filter compares dates. */
  predicate Matches(row: BookRow, title: Option<string>, category: Option<string>, publicationDate: Option<LocalDates.Date>) {
    && (title.None? || row.title == title)
    && (category.None? || row.category == category)
    && (publicationDate.None? || row.publicationDate == publicationDate)
  }

  /** The date filter after the store's cast (`None` both for no filter and for text that is no date). */
  function FilterDate(publicationDate: Option<string>): Option<LocalDates.Date> {
    if publicationDate.Some? then ParseIsoDate(publicationDate.value) else None
  }

  /** A date filter whose text the store cannot cast to a date. */
  predicate BadDateFilter(publicationDate: Option<string>) {
    publicationDate.Some? && ParseIsoDate(publicationDate.value).None?
  }

  function BindConditions(conds: seq<Condition>): Result<seq<Predicate>, Cause> {
    if conds == [] then Success([])
    else match BindOne(conds[0].column, conds[0].value)
      case Failure(e) => Failure(e)
      case Success(p) =>
        match BindConditions(conds[1..])
        case Failure(e) => Failure(e)
        case Success(rest) => Success([p] + rest)
  }

  lemma {:induction false} BindNumbered(conds: seq<Condition>, n: nat, params: seq<string>)
    requires n >= 1 && n - 1 + |conds| <= |params|
    requires forall i :: 0 <= i < |conds| ==> params[n - 1 + i] == conds[i].value
    ensures Bind(NumberedFrom(conds, n), params) == BindConditions(conds)
    decreases |conds|
  {
    if conds != [] {
      var rest := NumberedFrom(conds[1..], n + 1);
      var ps := NumberedFrom(conds, n);
      assert ps == [Placeholder(conds[0].column, n)] + rest;
      ConsParts(Placeholder(conds[0].column, n), rest);
      assert params[n - 1] == conds[0].value;
      forall i | 0 <= i < |conds[1..]| ensures params[n + 1 - 1 + i] == conds[1..][i].value {
        assert params[n - 1 + (i + 1)] == conds[i + 1].value;
      }
      BindNumbered(conds[1..], n + 1, params);
    }
  }

  lemma ConsParts<T>(x: T, s: seq<T>)
    ensures ([x] + s)[0] == x && ([x] + s)[1..] == s
  {
  }

  lemma {:induction false} HighestNumbered(conds: seq<Condition>, n: nat)
    requires n >= 1
    ensures HighestIndex(NumberedFrom(conds, n)) == if conds == [] then 0 else n + |conds| - 1
    decreases |conds|
  {
    if conds != [] {
      var ps := NumberedFrom(conds, n);
      assert ps[1..] == NumberedFrom(conds[1..], n + 1);
      HighestNumbered(conds[1..], n + 1);
    }
  }

  lemma {:induction false} BindAppend(a: seq<Condition>, b: seq<Condition>)
    ensures BindConditions(a + b) ==
      match BindConditions(a)
      case Failure(e) => Failure(e)
      case Success(pa) =>
        match BindConditions(b)
        case Failure(e) => Failure(e)
        case Success(pb) => Success(pa + pb)
    decreases |a|
  {
    if a == [] {
      assert a + b == b;
      if BindConditions(b).Success? {
        assert [] + BindConditions(b).value == BindConditions(b).value;
      }
    } else {
      assert (a + b)[0] == a[0];
      assert (a + b)[1..] == a[1..] + b;
      BindAppend(a[1..], b);
      if BindConditions(a).Success? && BindConditions(b).Success? {
        var p := BindOne(a[0].column, a[0].value).value;
        var rest := BindConditions(a[1..]).value;
        assert [p] + (rest + BindConditions(b).value) == ([p] + rest) + BindConditions(b).value;
      }
    }
  }

  lemma AllHoldAppend(row: BookRow, pa: seq<Predicate>, pb: seq<Predicate>)
    ensures AllHold(row, pa + pb) <==> AllHold(row, pa) && AllHold(row, pb)
  {
    if AllHold(row, pa) && AllHold(row, pb) {
      forall i | 0 <= i < |pa + pb| ensures Holds(row, (pa + pb)[i]) {
        if i >= |pa| {
          assert (pa + pb)[i] == pb[i - |pa|];
        }
      }
    }
    if AllHold(row, pa + pb) {
      forall i | 0 <= i < |pa| ensures Holds(row, pa[i]) {
        assert (pa + pb)[i] == pa[i];
      }
      forall i | 0 <= i < |pb| ensures Holds(row, pb[i]) {
        assert (pa + pb)[|pa| + i] == pb[i];
      }
    }
  }

  lemma AllHoldSingle(row: BookRow, p: Predicate)
    ensures AllHold(row, [p]) <==> Holds(row, p)
  {
    assert [p][0] == p;
  }

  lemma BindSingle(c: Condition)
    ensures BindConditions([c]) ==
      match BindOne(c.column, c.value)
      case Failure(e) => Failure(e)
      case Success(p) => Success([p])
  {
    assert [c][1..] == [];
    if BindOne(c.column, c.value).Success? {
      assert [BindOne(c.column, c.value).value] + [] == [BindOne(c.column, c.value).value];
    }
  }

  /** The conditions of the present filter fields bind to predicates that mean the filter. */
  lemma BindPresent(title: Option<string>, category: Option<string>, publicationDate: Option<string>, row: BookRow)
    ensures var r := BindConditions(PresentConditions(title, category, publicationDate));
      && (BadDateFilter(publicationDate) ==> r == Failure(InvalidDateText(publicationDate.value)))
      && (!BadDateFilter(publicationDate) ==>
            r.Success? && (AllHold(row, r.value) <==> Matches(row, title, category, FilterDate(publicationDate))))
  {
    var a := if title.Some? then [Condition(Title, title.value)] else [];
    var b := if category.Some? then [Condition(Category, category.value)] else [];
    var c := if publicationDate.Some? then [Condition(PublicationDate, publicationDate.value)] else [];
    assert PresentConditions(title, category, publicationDate) == a + b + c;
    if title.Some? { BindSingle(Condition(Title, title.value)); }
    if category.Some? { BindSingle(Condition(Category, category.value)); }
    if publicationDate.Some? { BindSingle(Condition(PublicationDate, publicationDate.value)); }
    BindAppend(a + b, c);
    BindAppend(a, b);
    var pa := BindConditions(a).value;
    var pb := BindConditions(b).value;
    if BindConditions(c).Success? {
      var pc := BindConditions(c).value;
      AllHoldAppend(row, pa + pb, pc);
      AllHoldAppend(row, pa, pb);
      assert AllHold(row, pa) <==> title.None? || row.title == title by {
        if title.Some? { AllHoldSingle(row, TitleIs(title.value)); }
      }
      assert AllHold(row, pb) <==> category.None? || row.category == category by {
        if category.Some? { AllHoldSingle(row, CategoryIs(category.value)); }
      }
      assert AllHold(row, pc) <==> FilterDate(publicationDate).None? || row.publicationDate == FilterDate(publicationDate) by {
        if publicationDate.Some? { AllHoldSingle(row, PublicationDateIs(FilterDate(publicationDate).value)); }
      }
    }
  }

  /** The rows the caller asks for: in scan order, those in the table that match the filter. */
  function FilterBooks(table: Table, scan: seq<int32>, title: Option<string>, category: Option<string>, publicationDate: Option<LocalDates.Date>): seq<BookRow> {
    if scan == [] then []
    else
      var rest := FilterBooks(table, scan[1..], title, category, publicationDate);
      if scan[0] in table && Matches(table[scan[0]], title, category, publicationDate) then [table[scan[0]]] + rest else rest
  }

  lemma {:induction false} SameSelection(table: Table, scan: seq<int32>, preds: seq<Predicate>,
                                         title: Option<string>, category: Option<string>, publicationDate: Option<LocalDates.Date>)
    requires forall row :: AllHold(row, preds) == Matches(row, title, category, publicationDate)
    ensures SelectMatching(table, scan, preds) == FilterBooks(table, scan, title, category, publicationDate)
    decreases |scan|
  {
    if scan != [] {
      SameSelection(table, scan[1..], preds, title, category, publicationDate);
    }
  }

  /**
   * The filter SELECT built from a filter means that filter: the rows of
   * the table, in scan order, whose fields equal every given filter field;
   * a date filter the store cannot cast fails the statement.
   */
  lemma FilterQueryMeansFilter(table: Table, scan: seq<int32>, title: Option<string>, category: Option<string>, publicationDate: Option<string>)
    ensures var q := QueryOf(SqlFindAllBooks, title, category, publicationDate);
      var result := ExecuteSelect(table, scan, q.preparedQuery, q.params);
      && (BadDateFilter(publicationDate) ==> result == Failure(InvalidDateText(publicationDate.value)))
      && (!BadDateFilter(publicationDate) ==>
            result == Success(FilterBooks(table, scan, title, category, FilterDate(publicationDate))))
  {
    var q := QueryOf(SqlFindAllBooks, title, category, publicationDate);
    var conds := PresentConditions(title, category, publicationDate);
    QueryConditions(SqlFindAllBooks, title, category, publicationDate);
    HighestNumbered(conds, 1);
    BindNumbered(conds, 1, q.params);
    BindPresent(title, category, publicationDate, BookRow(0, None, None, None));
    if !BadDateFilter(publicationDate) {
      var preds := BindConditions(conds).value;
      forall row: BookRow
        ensures AllHold(row, preds) == Matches(row, title, category, FilterDate(publicationDate))
      {
        BindPresent(title, category, publicationDate, row);
      }
      SameSelection(table, scan, preds, title, category, FilterDate(publicationDate));
    }
  }

  /**
   * What the store's scan of a table is: every key of the table, each one
   * exactly once, in some order that SQL leaves open.
   */
  ghost predicate IsTableScan(table: Table, scan: seq<int32>) {
    && (forall id :: id in table <==> id in scan)
    && (forall i, j :: 0 <= i < j < |scan| ==> scan[i] != scan[j])
  }

  /** No two rows of the list carry the same id. */
  ghost predicate DistinctIds(rows: seq<BookRow>) {
    forall i, j :: 0 <= i < j < |rows| ==> rows[i].id != rows[j].id
  }

  /**
   * Over a scan of the whole table, the selection lists every matching row
   * and nothing else, and no row twice.
   */
  lemma FilterBooksExactlyOnce(table: Table, scan: seq<int32>, title: Option<string>, category: Option<string>,
                               publicationDate: Option<LocalDates.Date>)
    requires WellKeyed(table) && IsTableScan(table, scan)
    ensures var rows := FilterBooks(table, scan, title, category, publicationDate);
      && (forall r :: r in rows <==> r.id in table && table[r.id] == r && Matches(r, title, category, publicationDate))
      && DistinctIds(rows)
  {
    var rows := FilterBooks(table, scan, title, category, publicationDate);
    forall r
      ensures r in rows <==> r.id in table && table[r.id] == r && Matches(r, title, category, publicationDate)
    {
      FilterBooksMembers(table, scan, title, category, publicationDate, r);
    }
    FilterBooksDistinct(table, scan, title, category, publicationDate);
  }

  /** A scan that visits no key twice selects no row twice. */
  lemma {:induction false} FilterBooksDistinct(table: Table, scan: seq<int32>, title: Option<string>, category: Option<string>,
                                               publicationDate: Option<LocalDates.Date>)
    requires WellKeyed(table)
    requires forall i, j :: 0 <= i < j < |scan| ==> scan[i] != scan[j]
    ensures DistinctIds(FilterBooks(table, scan, title, category, publicationDate))
    decreases |scan|
  {
    if scan != [] {
      var tail := scan[1..];
      assert forall i :: 0 <= i < |tail| ==> tail[i] == scan[i + 1];
      FilterBooksDistinct(table, tail, title, category, publicationDate);
      var rest := FilterBooks(table, tail, title, category, publicationDate);
      if scan[0] in table && Matches(table[scan[0]], title, category, publicationDate) {
        forall k | 0 <= k < |rest|
          ensures rest[k].id != scan[0]
        {
          FilterBooksMembers(table, tail, title, category, publicationDate, rest[k]);
          assert rest[k] in rest;
          assert scan[0] !in tail by {
            assert forall m :: 0 <= m < |tail| ==> scan[0] != tail[m];
          }
        }
        var rows := [table[scan[0]]] + rest;
        assert FilterBooks(table, scan, title, category, publicationDate) == rows;
        assert forall k :: 1 <= k < |rows| ==> rows[k] == rest[k - 1];
      }
    }
  }

  /** A row is returned exactly when the scan reaches its key and it matches the filter. */
  lemma {:induction false} FilterBooksMembers(table: Table, scan: seq<int32>, title: Option<string>, category: Option<string>,
                                              publicationDate: Option<LocalDates.Date>, r: BookRow)
    requires WellKeyed(table)
    ensures r in FilterBooks(table, scan, title, category, publicationDate)
      <==> r.id in scan && r.id in table && table[r.id] == r && Matches(r, title, category, publicationDate)
    decreases |scan|
  {
    if scan != [] {
      FilterBooksMembers(table, scan[1..], title, category, publicationDate, r);
      assert scan == [scan[0]] + scan[1..];
    }
  }

  // ---------------------------------------------------------------------
  // The service.

  /** How a call of the service ends. `()` is the result of the `Void` operations. */
  datatype AsyncResult<+T> = Succeeded(result: T) | Failed(cause: Cause)

  /** An exception thrown out of the call itself, before any statement is sent. */
  datatype JavaException = NullPointer | DateTimeParse(text: string)

  /** The handler is completed once, or the call throws and the handler is never completed. */
  datatype Completion<+T> = Completed(result: AsyncResult<T>) | Threw(exception: JavaException)

  /** `LocalDate.parse(text)`, which throws on `null` and on text that is no ISO date. */
  function ParseLocalDate(text: Option<string>): (r: Result<LocalDates.Date, JavaException>)
    ensures text.None? ==> r == Failure(NullPointer)
    ensures text.Some? ==> (r.Success? <==> ParseIsoDate(text.value).Some?)
    ensures text.Some? && r.Success? ==> ParseIsoDate(text.value) == Some(r.value)
    ensures text.Some? && r.Failure? ==> r.error == DateTimeParse(text.value)
  {
    match text
    case None => Failure(NullPointer)
    case Some(t) =>
      match ParseIsoDate(t)
      case None => Failure(DateTimeParse(t))
      case Some(d) => Success(d)
  }

  /** A date the service wrote as ISO text parses back to the same date. */
  lemma ParseLocalDateOfIsoText(d: LocalDates.Date)
    ensures ParseLocalDate(Some(FormatIsoDate(d))) == Success(d)
  {
    ParseFormatRoundTrip(d);
  }

  class BookDatabaseService {
    /** The `book` table behind the connection pool. */
    var table: Table

    predicate Valid()
      reads this
    {
      WellKeyed(table)
    }

    /** The service over a pool whose database holds `table`. */
    constructor (table: Table)
      requires WellKeyed(table)
      ensures this.table == table && Valid()
    {
      this.table := table;
    }

    /**
     * `addNewBook(book)`: `INSERT` with the book's own id and its date parsed
     * first; a key already present violates the primary key.
     */
    method AddNewBook(book: Book, fault: Option<string>) returns (c: Completion<()>)
      requires Valid()
      modifies this
      ensures Valid()
      ensures ParseLocalDate(book.publicationDate).Failure? ==>
        c == Threw(ParseLocalDate(book.publicationDate).error) && table == old(table)
      ensures ParseLocalDate(book.publicationDate).Success? && fault.Some? ==>
        c == Completed(Failed(ConnectionFailure(fault.value))) && table == old(table)
      ensures ParseLocalDate(book.publicationDate).Success? && fault.None? && book.bookId in old(table) ==>
        c == Completed(Failed(UniqueViolation(book.bookId))) && table == old(table)
      ensures ParseLocalDate(book.publicationDate).Success? && fault.None? && book.bookId !in old(table) ==>
        c == Completed(Succeeded(())) &&
        table == old(table)[book.bookId := BookRow(book.bookId, book.title, book.category, Some(ParseLocalDate(book.publicationDate).value))]
    {
      var date := ParseLocalDate(book.GetPublicationDate());
      if date.Failure? {
        return Threw(date.error);
      }
      if fault.Some? {
        return Completed(Failed(ConnectionFailure(fault.value)));
      }
      var id := book.GetBookId();
      if id in table {
        return Completed(Failed(UniqueViolation(id)));
      }
      table := table[id := BookRow(id, book.GetTitle(), book.GetCategory(), Some(date.value))];
      c := Completed(Succeeded(()));
    }

    /** `deleteBookById(id)`: removes that row; a missing id is no error. */
    method DeleteBookById(id: int32, fault: Option<string>) returns (r: AsyncResult<()>)
      requires Valid()
      modifies this
      ensures Valid()
      ensures fault.Some? ==> r == Failed(ConnectionFailure(fault.value)) && table == old(table)
      ensures fault.None? ==> r == Succeeded(()) && table == old(table) - {id}
    {
      if fault.Some? {
        return Failed(ConnectionFailure(fault.value));
      }
      table := table - {id};
      r := Succeeded(());
    }

    /**
     * `upsertBookById(id, book)`: `$1` is the path id, never the book's own;
     * the row under `id` becomes the book's fields whether it existed or not.
     */
    method UpsertBookById(id: int32, book: Book, fault: Option<string>) returns (c: Completion<()>)
      requires Valid()
      modifies this
      ensures Valid()
      ensures ParseLocalDate(book.publicationDate).Failure? ==>
        c == Threw(ParseLocalDate(book.publicationDate).error) && table == old(table)
      ensures ParseLocalDate(book.publicationDate).Success? && fault.Some? ==>
        c == Completed(Failed(ConnectionFailure(fault.value))) && table == old(table)
      ensures ParseLocalDate(book.publicationDate).Success? && fault.None? ==>
        c == Completed(Succeeded(())) &&
        table == old(table)[id := BookRow(id, book.title, book.category, Some(ParseLocalDate(book.publicationDate).value))]
    {
      var date := ParseLocalDate(book.GetPublicationDate());
      if date.Failure? {
        return Threw(date.error);
      }
      if fault.Some? {
        return Completed(Failed(ConnectionFailure(fault.value)));
      }
      table := table[id := BookRow(id, book.GetTitle(), book.GetCategory(), Some(date.value))];
      c := Completed(Succeeded(()));
    }

    /** `getBookById(id)`: the first mapped row, or the empty object when none matches. */
    method GetBookById(id: int32, fault: Option<string>) returns (r: AsyncResult<JsonObject>)
      ensures fault.Some? ==> r == Failed(ConnectionFailure(fault.value))
      ensures fault.None? && id !in table ==> r == Succeeded(EmptyJsonObject())
      ensures fault.None? && id in table ==> r == Succeeded(BookJson(table[id]))
    {
      if fault.Some? {
        return Failed(ConnectionFailure(fault.value));
      }
      var rows := SelectById(table, id);
      var jsonArray := Collect(BookJson, rows);
      if |jsonArray.elements| == 0 {
        r := Succeeded(EmptyJsonObject());
      } else {
        r := Succeeded(jsonArray.elements[0]);
      }
    }

    /**
     * `getBooks(filter)`: the filter SELECT built by `generateDynamicQuery`,
     * each selected row mapped, in the order the store returns them.
     */
    method GetBooks(filter: Book, scan: seq<int32>, fault: Option<string>) returns (r: AsyncResult<seq<JsonObject>>)
      requires IsTableScan(table, scan)
      ensures fault.Some? ==> r == Failed(ConnectionFailure(fault.value))
      ensures fault.None? && BadDateFilter(filter.publicationDate) ==>
        r == Failed(InvalidDateText(filter.publicationDate.value))
      ensures fault.None? && !BadDateFilter(filter.publicationDate) ==>
        r == Succeeded(MapRows(BookJson, FilterBooks(table, scan, filter.title, filter.category, FilterDate(filter.publicationDate))))
    {
      var dynamicQuery := GenerateDynamicQuery(SqlFindAllBooks, filter);
      if fault.Some? {
        return Failed(ConnectionFailure(fault.value));
      }
      FilterQueryMeansFilter(table, scan, filter.title, filter.category, filter.publicationDate);
      var selected := ExecuteSelect(table, scan, dynamicQuery.preparedQuery, dynamicQuery.params);
      if selected.Failure? {
        return Failed(selected.error);
      }
      var jsonArray := Collect(BookJson, selected.value);
      r := Succeeded(jsonArray.elements);
    }
  }

  // ---------------------------------------------------------------------
  // Properties across operations.

  /**
   * An upsert followed by a read of the same id on one service: the read
   * gives back the upserted fields under the path id, and every other row
   * is left as it was.
   */
  method UpsertThenGet(s: BookDatabaseService, id: int32, book: Book) returns (c: Completion<()>, r: AsyncResult<JsonObject>)
    requires s.Valid()
    requires ParseLocalDate(book.publicationDate).Success?
    modifies s
    ensures c == Completed(Succeeded(()))
    ensures r == Succeeded(BookJson(BookRow(id, book.title, book.category, Some(ParseLocalDate(book.publicationDate).value))))
    ensures forall other :: other != id ==> (other in s.table <==> other in old(s.table))
    ensures forall other :: other != id && other in old(s.table) ==> s.table[other] == old(s.table)[other]
  {
    c := s.UpsertBookById(id, book, None);
    r := s.GetBookById(id, None);
  }

  /** Two upserts of the same id on one service: the second one wins. */
  method UpsertLastWriteWins(s: BookDatabaseService, id: int32, first: Book, second: Book) returns (r: AsyncResult<JsonObject>)
    requires s.Valid()
    requires ParseLocalDate(first.publicationDate).Success? && ParseLocalDate(second.publicationDate).Success?
    modifies s
    ensures s.Valid()
    ensures s.table == old(s.table)[id := BookRow(id, second.title, second.category, Some(ParseLocalDate(second.publicationDate).value))]
    ensures r == Succeeded(BookJson(s.table[id]))
  {
    ghost var before := s.table;
    ghost var row := BookRow(id, second.title, second.category, Some(ParseLocalDate(second.publicationDate).value));
    var _ := s.UpsertBookById(id, first, None);
    var _ := s.UpsertBookById(id, second, None);
    assert s.table == before[id := row];
    r := s.GetBookById(id, None);
  }

  /** Deleting the id of a book just added gives back the table as it was. */
  method AddThenDelete(s: BookDatabaseService, book: Book) returns (c: Completion<()>, r: AsyncResult<()>)
    requires s.Valid()
    requires ParseLocalDate(book.publicationDate).Success? && book.bookId !in s.table
    modifies s
    ensures c == Completed(Succeeded(())) && r == Succeeded(())
    ensures s.Valid() && s.table == old(s.table)
  {
    c := s.AddNewBook(book, None);
    r := s.DeleteBookById(book.bookId, None);
  }

  lemma IsoDateExample()
    ensures FormatIsoDate(LocalDate(2009, 1, 1)) == "2009-01-01"
  {
    assert NatToDigits(2) == "2";
    assert NatToDigits(20) == "20";
    assert NatToDigits(200) == "200";
    assert NatToDigits(2009) == "2009";
    assert YearText(2009) == "2009";
    assert NatToDigits(1) == "1";
    assert TwoDigits(1) == "01";
  }

  /** The expected answer of the integration test for `getBookById(1)`. */
  lemma GetBookByIdExample()
    ensures BookJson(BookRow(1, Some("Effective java"), Some("java"), Some(LocalDate(2009, 1, 1))))
      == [Entry("id", Int(1)), Entry("title", Str("Effective java")), Entry("category", Str("java")),
          Entry("publicationDate", Str("2009-01-01"))]
  {
    var r := BookRow(1, Some("Effective java"), Some("java"), Some(LocalDate(2009, 1, 1)));
    var row := AsPgRow(r);
    AsPgRowValues(r);
    IsoDateExample();
    assert PublicationDateValue(row) == Str("2009-01-01");
  }

  /**
   * The filter `title = "Effective Java"` over a table of two books, one of
   * them with that title, answers that one book alone.
   */
  method GetBooksExample() returns (r: AsyncResult<seq<JsonObject>>)
    ensures r == Succeeded([BookJson(BookRow(1, Some("Effective Java"), Some("java"), Some(LocalDate(2009, 1, 1))))])
  {
    var effective := BookRow(1, Some("Effective Java"), Some("java"), Some(LocalDate(2009, 1, 1)));
    var thinking := BookRow(2, Some("Thinking in Java"), Some("java"), Some(LocalDate(2006, 2, 20)));
    var service := new BookDatabaseService(map[1 := effective, 2 := thinking]);
    var filter := new Book.Of(0, Some("Effective Java"), None, None);
    assert !BadDateFilter(filter.publicationDate) && FilterDate(filter.publicationDate) == None;
    r := service.GetBooks(filter, [1, 2], None);
    TitleFilterExample(effective, thinking);
    var mapped := MapRows(BookJson, [effective]);
    assert mapped[0] == BookJson(effective);
    assert mapped == [BookJson(effective)];
  }

  /** The title filter of the example above keeps the first book and drops the second. */
  lemma TitleFilterExample(effective: BookRow, thinking: BookRow)
    requires effective == BookRow(1, Some("Effective Java"), Some("java"), Some(LocalDate(2009, 1, 1)))
    requires thinking == BookRow(2, Some("Thinking in Java"), Some("java"), Some(LocalDate(2006, 2, 20)))
    ensures FilterBooks(map[1 := effective, 2 := thinking], [1, 2], Some("Effective Java"), None, None) == [effective]
  {
    var table := map[1 := effective, 2 := thinking];
    assert [1, 2][1..] == [2] && [2][1..] == [];
    assert !Matches(thinking, Some("Effective Java"), None, None);
    assert FilterBooks(table, [2], Some("Effective Java"), None, None) == [];
  }
}

=== FILE: decimal.dfy ===
/**
 * Decimal digit strings: how Java renders an `int` when it is concatenated
 * to a `String` (`Integer.toString`), and the inverse reading used by the
 * date parser and by the reading of `$n` placeholders.
 */
module Decimal {
  import opened Wrappers

  predicate IsDigit(c: char) {
    '0' <= c <= '9'
  }

  predicate AllDigits(s: string) {
    forall i :: 0 <= i < |s| ==> IsDigit(s[i])
  }

  function DigitChar(d: nat): (c: char)
    requires d < 10
    ensures IsDigit(c)
  {
    ('0' as int + d) as char
  }

  function DigitValue(c: char): (d: nat)
    requires IsDigit(c)
    ensures d < 10
  {
    c as int - '0' as int
  }

  function Pow10(k: nat): (p: nat)
    ensures p >= 1
  {
    if k == 0 then 1 else 10 * Pow10(k - 1)
  }

  /** The shortest decimal rendering of `n`, without sign or leading zeros. */
  function NatToDigits(n: nat): (s: string)
    ensures 1 <= |s| && AllDigits(s)
    ensures n > 0 ==> s[0] != '0'
  {
    if n < 10 then [DigitChar(n)] else NatToDigits(n / 10) + [DigitChar(n % 10)]
  }

  /** The value of a string of decimal digits (the empty string reads as 0). */
  function DigitsToNat(s: string): nat
    requires AllDigits(s)
  {
    if s == [] then 0 else DigitsToNat(s[..|s| - 1]) * 10 + DigitValue(s[|s| - 1])
  }

  /** `Integer.toString(i)`: a minus sign for negative values, then the digits. */
  function IntToString(i: int): (s: string)
    ensures |s| >= 1
  {
    if i < 0 then "-" + NatToDigits(-i) else NatToDigits(i)
  }

  /** `Integer.parseInt` restricted to what `IntToString` can write. */
  function ParseInt(s: string): Option<int> {
    if |s| >= 2 && s[0] == '-' && AllDigits(s[1..]) then (var n: int := DigitsToNat(s[1..]); Some(-n))
    else if |s| >= 1 && AllDigits(s) then Some(DigitsToNat(s))
    else None
  }

  /** `k` zero characters. */
  function Zeros(k: nat): (z: string)
    ensures |z| == k && AllDigits(z)
    ensures forall i :: 0 <= i < k ==> z[i] == '0'
  {
    if k == 0 then [] else Zeros(k - 1) + "0"
  }

  /** Left-pads `s` with zeros up to `width` characters, as a fixed-width formatter does. */
  function PadZeros(s: string, width: nat): (r: string)
    ensures |r| == if |s| < width then width else |s|
    ensures AllDigits(s) ==> AllDigits(r)
  {
    if |s| < width then Zeros(width - |s|) + s else s
  }

  lemma {:induction false} DigitsRoundTrip(n: nat)
    ensures DigitsToNat(NatToDigits(n)) == n
  {
    if n >= 10 {
      var s := NatToDigits(n);
      assert s[..|s| - 1] == NatToDigits(n / 10);
      DigitsRoundTrip(n / 10);
    }
  }

  lemma {:induction false} ZerosValue(k: nat)
    ensures DigitsToNat(Zeros(k)) == 0
  {
    if k > 0 {
      assert Zeros(k)[..k - 1] == Zeros(k - 1);
      ZerosValue(k - 1);
    }
  }

  /** Leading zeros do not change the value of a digit string. */
  lemma {:induction false} LeadingZerosValue(k: nat, s: string)
    requires AllDigits(s)
    ensures DigitsToNat(Zeros(k) + s) == DigitsToNat(s)
    decreases |s|
  {
    if s == [] {
      assert Zeros(k) + s == Zeros(k);
      ZerosValue(k);
    } else {
      var t := Zeros(k) + s;
      assert t[..|t| - 1] == Zeros(k) + s[..|s| - 1];
      LeadingZerosValue(k, s[..|s| - 1]);
    }
  }

  lemma PadZerosValue(s: string, width: nat)
    requires AllDigits(s)
    ensures DigitsToNat(PadZeros(s, width)) == DigitsToNat(s)
  {
    if |s| < width {
      assert PadZeros(s, width) == Zeros(width - |s|) + s;
      LeadingZerosValue(width - |s|, s);
    } else {
      assert PadZeros(s, width) == s;
    }
  }

  /** A number below 10^k needs at most k digits. */
  lemma {:induction false} DigitsLengthUpper(n: nat, k: nat)
    requires 1 <= k && n < Pow10(k)
    ensures |NatToDigits(n)| <= k
  {
    if n >= 10 {
      assert k >= 2;
      DigitsLengthUpper(n / 10, k - 1);
    }
  }

  /** A number of at least 10^k needs more than k digits. */
  lemma {:induction false} DigitsLengthLower(n: nat, k: nat)
    requires n >= Pow10(k)
    ensures |NatToDigits(n)| > k
  {
    if k > 0 {
      DigitsLengthLower(n / 10, k - 1);
    }
  }

  /** Reading back what `Integer.toString` wrote gives the same number. */
  lemma IntToStringRoundTrip(i: int)
    ensures ParseInt(IntToString(i)) == Some(i)
  {
    var s := IntToString(i);
    if i < 0 {
      var d := NatToDigits(-i);
      DigitsRoundTrip(-i);
      assert s == "-" + d;
      assert s[1..] == d;
      assert |s| >= 2 && s[0] == '-' && AllDigits(s[1..]);
    } else {
      var d := NatToDigits(i);
      DigitsRoundTrip(i);
      assert s == d;
      assert IsDigit(s[0]);
      assert s[0] != '-';
    }
  }
}

=== FILE: dynamic_query.dfy ===
/**
 * The dynamic filter-query builder: a base statement ending in `WHERE TRUE`
 * gets one ` AND <column> = $<n>` condition per non-null filter field, in the
 * fixed order title, category, publication_date, with `n` counting the
 * conditions appended so far; each field's value goes into the parameter
 * tuple in the same order.
 *
 * Its partner is `ParseConditions`, which reads the appended conditions back
 * out of the SQL text as (column, placeholder number) pairs.
 */
module BookDatabaseServiceUtils {
  import opened Wrappers
  import opened Decimal
  import opened Json
  import opened Entity

  const SqlFindBooksConditionByTitle: string := " AND title = $"
  const SqlFindBooksConditionByCategory: string := " AND category = $"
  const SqlFindBooksConditionByPublicationDate: string := " AND publication_date = $"

  /** `new JsonObject()`. */
  function EmptyJsonObject(): (o: JsonObject)
    ensures Keys(o) == {} && IsEmpty(o)
  {
    []
  }

  /** The prepared SQL text and its positional parameters (`Tuple`), all strings here. */
  datatype DynamicQuery = DynamicQuery(preparedQuery: string, params: seq<string>)

  datatype Column = Title | Category | PublicationDate

  function ConditionText(c: Column): string {
    match c
    case Title => SqlFindBooksConditionByTitle
    case Category => SqlFindBooksConditionByCategory
    case PublicationDate => SqlFindBooksConditionByPublicationDate
  }

  /** The filter fields that are present, in the order the builder visits them. */
  datatype Condition = Condition(column: Column, value: string)

  function PresentConditions(title: Option<string>, category: Option<string>, publicationDate: Option<string>): seq<Condition> {
    (if title.Some? then [Condition(Title, title.value)] else []) +
    (if category.Some? then [Condition(Category, category.value)] else []) +
    (if publicationDate.Some? then [Condition(PublicationDate, publicationDate.value)] else [])
  }

  /** The text appended for `conds`, the first of them numbered `$n`. */
  function RenderFrom(conds: seq<Condition>, n: nat): string
    decreases |conds|
  {
    if conds == [] then ""
    else ConditionText(conds[0].column) + IntToString(n) + RenderFrom(conds[1..], n + 1)
  }

  function Values(conds: seq<Condition>): (vs: seq<string>)
    ensures |vs| == |conds|
    ensures forall i :: 0 <= i < |conds| ==> vs[i] == conds[i].value
  {
    if conds == [] then [] else [conds[0].value] + Values(conds[1..])
  }

  /** The query the builder produces, stated over the present fields. */
  function QueryOf(rawSql: string, title: Option<string>, category: Option<string>, publicationDate: Option<string>): DynamicQuery {
    var conds := PresentConditions(title, category, publicationDate);
    DynamicQuery(rawSql + RenderFrom(conds, 1), Values(conds))
  }

  /** Appending one more condition numbers it after all the earlier ones. */
  lemma {:induction false} RenderSnoc(conds: seq<Condition>, c: Condition, n: nat)
    ensures RenderFrom(conds + [c], n) == RenderFrom(conds, n) + (ConditionText(c.column) + IntToString(n + |conds|))
    decreases |conds|
  {
    var last := ConditionText(c.column) + IntToString(n + |conds|);
    if conds == [] {
      assert conds + [c] == [c];
      assert [c][1..] == [];
      assert RenderFrom([c], n) == last + "";
      assert last + "" == last == "" + last;
    } else {
      var head := ConditionText(conds[0].column) + IntToString(n);
      var rest := RenderFrom(conds[1..], n + 1);
      TailSnoc(conds, c);
      RenderSnoc(conds[1..], c, n + 1);
      assert RenderFrom(conds[1..] + [c], n + 1) == rest + last;
      assert RenderFrom(conds + [c], n) == head + (rest + last);
      assert RenderFrom(conds, n) == head + rest;
      ConcatAssociative(head, rest, last);
    }
  }

  lemma TailSnoc<T>(s: seq<T>, x: T)
    requires s != []
    ensures (s + [x])[0] == s[0] && (s + [x])[1..] == s[1..] + [x]
  {
  }

  lemma ConcatAssociative(a: string, b: string, c: string)
    ensures a + (b + c) == (a + b) + c
  {
  }

  lemma ValuesSnoc(conds: seq<Condition>, c: Condition)
    ensures Values(conds + [c]) == Values(conds) + [c.value]
  {
  }

  /** The builder's state after appending `conds`: the text, the tuple and the counter agree with them. */
  ghost predicate Built(rawSql: string, conds: seq<Condition>, sql: string, params: seq<string>, count: int) {
    sql == rawSql + RenderFrom(conds, 1) && params == Values(conds) && count == |conds|
  }

  /** One conditional block of the builder keeps text, counter and tuple aligned. */
  lemma AppendCondition(rawSql: string, conds: seq<Condition>, c: Condition, sql: string, params: seq<string>,
                        sql': string, params': seq<string>, count': int)
    requires Built(rawSql, conds, sql, params, count' - 1)
    requires sql' == sql + ConditionText(c.column) + IntToString(count')
    requires params' == params + [c.value]
    ensures Built(rawSql, conds + [c], sql', params', count')
  {
    var text, number := ConditionText(c.column), IntToString(|conds| + 1);
    RenderSnoc(conds, c, 1);
    ValuesSnoc(conds, c);
    ConcatAssociative(sql, text, number);
    ConcatAssociative(rawSql, RenderFrom(conds, 1), text + number);
  }

  /**
   * `generateDynamicQuery(rawSql, book)`: a running counter, the SQL text
   * grown by concatenation and the parameter tuple grown by appending, over
   * three conditional blocks. The book's id is never read.
   */
  method GenerateDynamicQuery(rawSql: string, book: Book) returns (q: DynamicQuery)
    ensures q == QueryOf(rawSql, book.title, book.category, book.publicationDate)
  {
    var title := book.GetTitle();
    var category := book.GetCategory();
    var publicationDate := book.GetPublicationDate();

    ghost var conds: seq<Condition> := [];
    var count := 0;
    var dynamicSql := rawSql;
    var params: seq<string> := [];
    assert Built(rawSql, conds, dynamicSql, params, count);
    if title.Some? {
      ghost var sql, values := dynamicSql, params;
      count := count + 1;
      dynamicSql := dynamicSql + SqlFindBooksConditionByTitle;
      dynamicSql := dynamicSql + IntToString(count);
      params := params + [title.value];
      AppendCondition(rawSql, conds, Condition(Title, title.value), sql, values, dynamicSql, params, count);
      conds := conds + [Condition(Title, title.value)];
    }
    ghost var afterTitle := conds;
    if category.Some? {
      ghost var sql, values := dynamicSql, params;
      count := count + 1;
      dynamicSql := dynamicSql + SqlFindBooksConditionByCategory;
      dynamicSql := dynamicSql + IntToString(count);
      params := params + [category.value];
      AppendCondition(rawSql, conds, Condition(Category, category.value), sql, values, dynamicSql, params, count);
      conds := conds + [Condition(Category, category.value)];
    }
    ghost var afterCategory := conds;
    if publicationDate.Some? {
      ghost var sql, values := dynamicSql, params;
      count := count + 1;
      dynamicSql := dynamicSql + SqlFindBooksConditionByPublicationDate;
      dynamicSql := dynamicSql + IntToString(count);
      params := params + [publicationDate.value];
      AppendCondition(rawSql, conds, Condition(PublicationDate, publicationDate.value), sql, values, dynamicSql, params, count);
      conds := conds + [Condition(PublicationDate, publicationDate.value)];
    }
    assert conds == afterCategory + (if publicationDate.Some? then [Condition(PublicationDate, publicationDate.value)] else []);
    assert afterCategory == afterTitle + (if category.Some? then [Condition(Category, category.value)] else []);
    assert afterTitle == (if title.Some? then [Condition(Title, title.value)] else []);
    assert conds == PresentConditions(title, category, publicationDate);
    assert Built(rawSql, conds, dynamicSql, params, count);
    q := DynamicQuery(dynamicSql, params);
  }

  // ---------------------------------------------------------------------
  // Reading the conditions back out of the SQL text.

  /** A condition as the text states it: a column and its placeholder number. */
  datatype Placeholder = Placeholder(column: Column, index: nat)

  /** The longest prefix of digits. */
  function LeadingDigits(s: string): (d: string)
    ensures d <= s && AllDigits(d)
  {
    if s == [] || !IsDigit(s[0]) then [] else [s[0]] + LeadingDigits(s[1..])
  }

  /** Which fixed condition text `s` starts with, if any. */
  function ConditionAt(s: string): Option<Column> {
    if SqlFindBooksConditionByTitle <= s then Some(Title)
    else if SqlFindBooksConditionByCategory <= s then Some(Category)
    else if SqlFindBooksConditionByPublicationDate <= s then Some(PublicationDate)
    else None
  }

  /** Reads a run of ` AND <column> = $<n>` conditions; `None` if the text is anything else. */
  function ParseConditions(s: string): Option<seq<Placeholder>>
    decreases |s|
  {
    if s == [] then Some([])
    else match ConditionAt(s)
      case None => None
      case Some(col) =>
        var afterText := s[|ConditionText(col)|..];
        var digits := LeadingDigits(afterText);
        if digits == [] then None
        else match ParseConditions(afterText[|digits|..])
          case None => None
          case Some(rest) => Some([Placeholder(col, DigitsToNat(digits))] + rest)
  }

  /** The placeholders numbered `n`, `n + 1`, … in the order of `conds`. */
  function NumberedFrom(conds: seq<Condition>, n: nat): (ps: seq<Placeholder>)
    ensures |ps| == |conds|
    ensures forall i :: 0 <= i < |conds| ==> ps[i] == Placeholder(conds[i].column, n + i)
  {
    if conds == [] then [] else [Placeholder(conds[0].column, n)] + NumberedFrom(conds[1..], n + 1)
  }

  lemma ConditionAtText(c: Column, rest: string)
    ensures ConditionAt(ConditionText(c) + rest) == Some(c)
  {
    var s := ConditionText(c) + rest;
    assert s[..|ConditionText(c)|] == ConditionText(c);
    // the three texts part at their sixth character: 't', 'c', 'p'
    assert s[5] == ConditionText(c)[5];
  }

  lemma {:induction false} LeadingDigitsStop(d: string, rest: string)
    requires AllDigits(d)
    requires rest == [] || !IsDigit(rest[0])
    ensures LeadingDigits(d + rest) == d
  {
    if d == [] {
      assert d + rest == rest;
    } else {
      assert (d + rest)[1..] == d[1..] + rest;
      LeadingDigitsStop(d[1..], rest);
    }
  }

  lemma RenderStartsWithSpace(conds: seq<Condition>, n: nat)
    ensures RenderFrom(conds, n) == [] || RenderFrom(conds, n)[0] == ' '
  {
    if conds != [] {
      assert RenderFrom(conds, n)[0] == ConditionText(conds[0].column)[0];
    }
  }

  /** The text of `conds`, numbered from `n`, reads back as exactly those columns and numbers. */
  ghost predicate ReadsBack(conds: seq<Condition>, n: nat) {
    ParseConditions(RenderFrom(conds, n)) == Some(NumberedFrom(conds, n))
  }

  /** The appended text reads back as exactly the conditions, numbered consecutively from `n`. */
  lemma {:induction false} ParseRender(conds: seq<Condition>, n: nat)
    requires n >= 1
    ensures ReadsBack(conds, n)
    decreases |conds|
  {
    if conds == [] {
      assert RenderFrom(conds, n) == [] && NumberedFrom(conds, n) == [];
    } else {
      ParseRender(conds[1..], n + 1);
      ParseRenderStep(conds, n);
    }
  }

  /** If the rest of a run reads back, so does the whole run. */
  lemma ParseRenderStep(conds: seq<Condition>, n: nat)
    requires conds != [] && n >= 1
    requires ReadsBack(conds[1..], n + 1)
    ensures ReadsBack(conds, n)
  {
    var c, rest := conds[0], conds[1..];
    var digits := NatToDigits(n);
    RenderCons(conds, n);
    RenderStartsWithSpace(rest, n + 1);
    ParseStep(c.column, digits, RenderFrom(rest, n + 1), NumberedFrom(rest, n + 1));
    DigitsRoundTrip(n);
  }

  /** The text and the placeholders of a non-empty run, split into its first condition and the rest. */
  lemma RenderCons(conds: seq<Condition>, n: nat)
    requires conds != []
    ensures RenderFrom(conds, n) == ConditionText(conds[0].column) + (NatToDigits(n) + RenderFrom(conds[1..], n + 1))
    ensures NumberedFrom(conds, n) == [Placeholder(conds[0].column, n)] + NumberedFrom(conds[1..], n + 1)
  {
    var text, digits, tail := ConditionText(conds[0].column), NatToDigits(n), RenderFrom(conds[1..], n + 1);
    assert IntToString(n) == digits;
    RenderPieces(text, digits, tail);
  }

  /** One condition text, its number and a tail that starts with no digit read back as one placeholder before the tail's. */
  lemma ParseStep(col: Column, digits: string, tail: string, rest: seq<Placeholder>)
    requires digits != [] && AllDigits(digits)
    requires tail == [] || !IsDigit(tail[0])
    requires ParseConditions(tail) == Some(rest)
    ensures ParseConditions(ConditionText(col) + (digits + tail)) == Some([Placeholder(col, DigitsToNat(digits))] + rest)
  {
    var text := ConditionText(col);
    var s := text + (digits + tail);
    ConditionAtText(col, digits + tail);
    RenderPieces(text, digits, tail);
    var afterText := s[|text|..];
    assert afterText == digits + tail;
    LeadingDigitsStop(digits, tail);
    assert afterText[|digits|..] == tail;
  }

  lemma RenderPieces(text: string, digits: string, tail: string)
    ensures (text + digits + tail)[|text|..] == digits + tail
    ensures (digits + tail)[|digits|..] == tail
    ensures text + digits + tail == text + (digits + tail)
  {
  }

  /**
   * The conditions in the built text are those of the present fields, in
   * the order title, category, publication_date, numbered `$1` to `$k`
   * without gaps; parameter `i` is the value of the `i`-th present field.
   */
  lemma QueryConditions(rawSql: string, title: Option<string>, category: Option<string>, publicationDate: Option<string>)
    ensures var q := QueryOf(rawSql, title, category, publicationDate);
      var conds := PresentConditions(title, category, publicationDate);
      && rawSql <= q.preparedQuery
      && ParseConditions(q.preparedQuery[|rawSql|..]) == Some(NumberedFrom(conds, 1))
      && |q.params| == |conds|
      && forall i :: 0 <= i < |conds| ==> q.params[i] == conds[i].value
  {
    var q := QueryOf(rawSql, title, category, publicationDate);
    var conds := PresentConditions(title, category, publicationDate);
    assert q.preparedQuery[|rawSql|..] == RenderFrom(conds, 1);
    ParseRender(conds, 1);
  }

  /** The number of conditions and of parameters is the number of non-null filter fields. */
  lemma ParameterCount(rawSql: string, title: Option<string>, category: Option<string>, publicationDate: Option<string>)
    ensures |QueryOf(rawSql, title, category, publicationDate).params|
      == (if title.Some? then 1 else 0) + (if category.Some? then 1 else 0) + (if publicationDate.Some? then 1 else 0)
  {
  }

  /** With no filter field set, the statement is the base statement and binds nothing. */
  lemma NoFilterIsRawQuery(rawSql: string)
    ensures QueryOf(rawSql, None, None, None) == DynamicQuery(rawSql, [])
  {
  }
}

=== FILE: failure_handler.dfy ===
/**
 * The failure handler of the older HTTP layer: it answers a failed request
 * with a status chosen by the class of the failure and a JSON body holding
 * a single `message`.
 */
module FailureHandler {
  import opened Wrappers
  import opened Json

  /**
   * The classes the handler tests with `instanceof`. None of the four named
   * ones is a subclass of another, so a failure is an instance of at most
   * one of them; `Other` is everything else.
   */
  datatype ExceptionClass =
    | ValidationException
    | BadRequestException
    | ResourceNotFoundException
    | DecodeException
    | Other

  /** A `Throwable`: its class and its message (`getMessage()` may be null). */
  datatype Failure = Failure(exceptionClass: ExceptionClass, message: Option<string>)

  datatype ErrorResponse = ErrorResponse(status: int, body: JsonObject)

  /** `errorMessageToErrorBody(message)`: an object whose one key is `message`. */
  function ErrorBody(message: Option<string>): (o: JsonObject)
    ensures Keys(o) == {"message"} && |o| == 1
    ensures Get(o, "message") == Some(OptStr(message))
  {
    PutSpec([], "message", OptStr(message));
    Put([], "message", OptStr(message))
  }

  /** `handle`: the branches in order, the first class that matches deciding. */
  function Handle(failure: Failure): (response: ErrorResponse)
    ensures failure.exceptionClass == ValidationException ==> response == ErrorResponse(400, ErrorBody(Some("Validation failed")))
    ensures failure.exceptionClass == BadRequestException ==> response == ErrorResponse(400, ErrorBody(Some("Invalid Request")))
    ensures failure.exceptionClass == ResourceNotFoundException ==> response == ErrorResponse(404, ErrorBody(failure.message))
    ensures failure.exceptionClass == DecodeException ==> response == ErrorResponse(400, ErrorBody(Some("Problems parsing JSON")))
    ensures failure.exceptionClass == Other ==> response == ErrorResponse(500, ErrorBody(failure.message))
  {
    if failure.exceptionClass == ValidationException then ErrorResponse(400, ErrorBody(Some("Validation failed")))
    else if failure.exceptionClass == BadRequestException then ErrorResponse(400, ErrorBody(Some("Invalid Request")))
    else if failure.exceptionClass == ResourceNotFoundException then ErrorResponse(404, ErrorBody(failure.message))
    else if failure.exceptionClass == DecodeException then ErrorResponse(400, ErrorBody(Some("Problems parsing JSON")))
    else ErrorResponse(500, ErrorBody(failure.message))
  }

  /**
   * Every failure is answered with 400, 404 or 500 and a body whose single
   * key is `message`; 404 exactly for a missing resource and 500 exactly
   * for an unexpected class, and only those two pass the failure's own
   * message on.
   */
  lemma HandleTable(failure: Failure)
    ensures Handle(failure).status in {400, 404, 500}
    ensures Keys(Handle(failure).body) == {"message"}
    ensures Handle(failure).status == 404 <==> failure.exceptionClass == ResourceNotFoundException
    ensures Handle(failure).status == 500 <==> failure.exceptionClass == Other
    ensures Handle(failure).status != 400 ==> Get(Handle(failure).body, "message") == Some(OptStr(failure.message))
  {
  }

  /** A client error never leaks the failure's message: the three 400 texts are fixed. */
  lemma ClientErrorsHideMessage(a: Failure, b: Failure)
    requires a.exceptionClass == b.exceptionClass
    requires Handle(a).status == 400
    ensures Handle(a) == Handle(b)
  {
  }
}

=== FILE: get_books_handler.dfy ===
/**
 * The older list handler: it builds the same kind of filter from the query
 * parameters (reading the date from `publicationdate`) and writes the
 * response itself, with a status chosen by the number of books and no body
 * on not-found or failure.
 */
module GetBooksHandler {
  import opened Wrappers
  import opened Json
  import opened Entity
  import opened BookDatabaseServiceImpl
  import opened BookApis

  datatype ResponseBody = NoBody | ObjectBody(o: JsonObject) | ArrayBody(a: seq<JsonObject>)

  datatype Response = Response(status: int, body: ResponseBody)

  /** The filter of `handle`: `title`, `category` and `publicationdate`; the id stays 0. */
  method Filter(params: QueryParams) returns (book: Book)
    ensures fresh(book)
    ensures book.bookId == 0
    ensures book.title == QueryParam(params, "title")
    ensures book.category == QueryParam(params, "category")
    ensures book.publicationDate == QueryParam(params, "publicationdate")
  {
    book := new Book();
    book.SetTitle(QueryParam(params, "title"));
    book.SetCategory(QueryParam(params, "category"));
    book.SetPublicationDate(QueryParam(params, "publicationdate"));
  }

  /** The response of `handle` for each way `getBooks` can end. */
  function HandleResult(r: AsyncResult<seq<JsonObject>>): (response: Response)
    ensures r.Failed? ==> response == Response(400, NoBody)
    ensures r.Succeeded? && |r.result| == 0 ==> response == Response(404, NoBody)
    ensures r.Succeeded? && |r.result| == 1 ==> response == Response(200, ObjectBody(r.result[0]))
    ensures r.Succeeded? && |r.result| >= 2 ==> response == Response(200, ArrayBody(r.result))
  {
    match r
    case Failed(_) => Response(400, NoBody)
    case Succeeded(books) =>
      if |books| == 0 then Response(404, NoBody)
      else if |books| == 1 then Response(200, ObjectBody(books[0]))
      else Response(200, ArrayBody(books))
  }

  /** Only 200 carries a body, and the status is one of 200, 400 and 404. */
  lemma StatusAndBody(r: AsyncResult<seq<JsonObject>>)
    ensures HandleResult(r).status in {200, 400, 404}
    ensures HandleResult(r).body.NoBody? <==> HandleResult(r).status != 200
  {
  }

  /**
   * The two list handlers read the same date parameter, since parameter
   * names compare ignoring ASCII case; on success they send the same books.
   */
  lemma AgreesWithBookApis(params: QueryParams, r: AsyncResult<seq<JsonObject>>)
    ensures QueryParam(params, "publicationdate") == QueryParam(params, "publicationDate")
    ensures HandleResult(r).status == 200 <==> GetBooksReply(r).Respond?
    ensures HandleResult(r).body.ObjectBody? ==> GetBooksReply(r).body == Object(HandleResult(r).body.o)
    ensures HandleResult(r).body.ArrayBody? ==> GetBooksReply(r).body == Array(HandleResult(r).body.a)
  {
    assert SameName("publicationdate", "publicationDate") by {
      assert forall i :: 0 <= i < 15 ==> LowerAscii("publicationdate"[i]) == LowerAscii("publicationDate"[i]);
    }
    QueryParamIgnoresCase(params, "publicationdate", "publicationDate");
  }
}

=== FILE: json.dfy ===
/**
 * The values that flow from result rows into Vert.x `JsonObject`s, and the
 * `JsonObject` itself: an insertion-ordered map (a `LinkedHashMap` inside),
 * where `put` on a key already present replaces its value in place and a
 * new key goes at the end.
 */
module Json {
  import opened Wrappers
  import opened LocalDates

  /**
   * A `java.lang.Object` as read from a column or stored in a JSON object.
   * `DateTime` and `Uuid` carry the text their library formatter writes.
   */
  datatype Value =
    | Null
    | Bool(b: bool)
    | Int(i: int)
    | Str(s: string)
    | Date(date: LocalDates.Date)
    | DateTime(isoText: string)
    | Uuid(text: string)

  /** The types a `JsonObject` accepts without complaint. */
  predicate IsJsonType(v: Value) {
    !v.Date? && !v.DateTime? && !v.Uuid?
  }

  /** `Str(s)` for a Java string, `Null` for `null`. */
  function OptStr(s: Option<string>): (v: Value)
    ensures v == Null <==> s.None?
    ensures s.Some? ==> v == Str(s.value)
  {
    match s
    case None => Null
    case Some(t) => Str(t)
  }

  datatype Entry = Entry(key: string, value: Value)

  type JsonObject = seq<Entry>

  function Keys(o: JsonObject): set<string> {
    set e | e in o :: e.key
  }

  predicate DistinctKeys(o: JsonObject) {
    forall i, j :: 0 <= i < j < |o| ==> o[i].key != o[j].key
  }

  /** `getValue(key)`: `None` when the key is absent (a key mapped to null gives `Some(Null)`). */
  function Get(o: JsonObject, key: string): (r: Option<Value>)
    ensures r.Some? <==> key in Keys(o)
  {
    if o == [] then None
    else if o[0].key == key then Some(o[0].value)
    else
      assert Keys(o) == {o[0].key} + Keys(o[1..]);
      Get(o[1..], key)
  }

  /** `put(key, value)`. */
  function Put(o: JsonObject, key: string, value: Value): (r: JsonObject)
    ensures |o| <= |r| <= |o| + 1
  {
    if o == [] then [Entry(key, value)]
    else if o[0].key == key then [Entry(key, value)] + o[1..]
    else [o[0]] + Put(o[1..], key, value)
  }

  lemma KeysCons(e: Entry, o: JsonObject)
    ensures Keys([e] + o) == {e.key} + Keys(o)
  {
    assert forall x :: x in [e] + o <==> x == e || x in o;
  }

  /** After `put` the keys are the old ones plus the key put. */
  lemma {:induction false} PutKeys(o: JsonObject, key: string, value: Value)
    ensures Keys(Put(o, key, value)) == Keys(o) + {key}
    decreases |o|
  {
    if o != [] {
      assert o == [o[0]] + o[1..];
      KeysCons(o[0], o[1..]);
      if o[0].key == key {
        KeysCons(Entry(key, value), o[1..]);
      } else {
        PutKeys(o[1..], key, value);
        KeysCons(o[0], Put(o[1..], key, value));
      }
    }
  }

  /** After `put` the key holds the new value and every other key keeps its value. */
  lemma {:induction false} PutGet(o: JsonObject, key: string, value: Value)
    ensures Get(Put(o, key, value), key) == Some(value)
    ensures forall k :: k != key ==> Get(Put(o, key, value), k) == Get(o, k)
    decreases |o|
  {
    if o != [] && o[0].key != key {
      PutGet(o[1..], key, value);
    }
  }

  /** `put` keeps the keys distinct, and grows the object by one entry exactly when the key is new. */
  lemma {:induction false} PutDistinct(o: JsonObject, key: string, value: Value)
    ensures DistinctKeys(o) ==> DistinctKeys(Put(o, key, value))
    ensures |Put(o, key, value)| == if key in Keys(o) then |o| else |o| + 1
    decreases |o|
  {
    if o != [] {
      assert o == [o[0]] + o[1..];
      KeysCons(o[0], o[1..]);
      if o[0].key == key {
        if DistinctKeys(o) {
          DistinctSplit(o);
          DistinctCons(Entry(key, value), o[1..]);
        }
      } else {
        PutDistinct(o[1..], key, value);
        if DistinctKeys(o) {
          DistinctSplit(o);
          PutKeys(o[1..], key, value);
          DistinctCons(o[0], Put(o[1..], key, value));
        }
      }
    }
  }

  /** All that `put` promises, in one place. */
  lemma PutSpec(o: JsonObject, key: string, value: Value)
    ensures Keys(Put(o, key, value)) == Keys(o) + {key}
    ensures Get(Put(o, key, value), key) == Some(value)
    ensures forall k :: k != key ==> Get(Put(o, key, value), k) == Get(o, k)
    ensures DistinctKeys(o) ==> DistinctKeys(Put(o, key, value))
    ensures |Put(o, key, value)| == if key in Keys(o) then |o| else |o| + 1
  {
    PutKeys(o, key, value);
    PutGet(o, key, value);
    PutDistinct(o, key, value);
  }

  lemma DistinctSplit(o: JsonObject)
    requires |o| > 0 && DistinctKeys(o)
    ensures o[0].key !in Keys(o[1..]) && DistinctKeys(o[1..])
  {
  }

  lemma DistinctCons(e: Entry, o: JsonObject)
    requires DistinctKeys(o) && e.key !in Keys(o)
    ensures DistinctKeys([e] + o)
  {
    var r := [e] + o;
    forall i, j | 0 <= i < j < |r| ensures r[i].key != r[j].key {
      if i == 0 {
        assert r[j] in o;
      }
    }
  }

  /** A `put` of a key not yet present appends the entry at the end. */
  lemma {:induction false} PutAppends(o: JsonObject, key: string, value: Value)
    requires forall e :: e in o ==> e.key != key
    ensures Put(o, key, value) == o + [Entry(key, value)]
    decreases |o|
  {
    if o != [] {
      assert o[0] in o;
      PutAppends(o[1..], key, value);
      assert o == [o[0]] + o[1..];
    }
  }

  /** Four `put`s of distinct keys into an empty object, chained: the four entries in call order. */
  lemma PutFour(e1: Entry, e2: Entry, e3: Entry, e4: Entry)
    requires e1.key != e2.key && e1.key != e3.key && e1.key != e4.key
    requires e2.key != e3.key && e2.key != e4.key && e3.key != e4.key
    ensures Put(Put(Put(Put([], e1.key, e1.value), e2.key, e2.value), e3.key, e3.value), e4.key, e4.value)
      == [e1, e2, e3, e4]
  {
    var o1 := Put([], e1.key, e1.value);
    PutAppends([], e1.key, e1.value);
    assert o1 == [e1];
    var o2 := Put(o1, e2.key, e2.value);
    PutAppends(o1, e2.key, e2.value);
    assert o2 == [e1, e2];
    var o3 := Put(o2, e3.key, e3.value);
    PutAppends(o2, e3.key, e3.value);
    assert o3 == [e1, e2, e3];
    PutAppends(o3, e4.key, e4.value);
  }

  /** In an object whose keys are distinct, each entry's key reads back that entry's value. */
  lemma {:induction false} GetAt(o: JsonObject, i: nat)
    requires DistinctKeys(o) && i < |o|
    ensures Get(o, o[i].key) == Some(o[i].value)
    decreases i
  {
    if i > 0 {
      assert o[0].key != o[i].key;
      GetAt(o[1..], i - 1);
    }
  }

  /** `isEmpty()`. */
  predicate IsEmpty(o: JsonObject) {
    |o| == 0
  }
}

=== FILE: local_date.dfy ===
/**
 * `java.time.LocalDate` as a (year, month, day) triple in the proleptic
 * ISO calendar, its rendering by `DateTimeFormatter.ISO_DATE` and its
 * reading by `LocalDate.parse`: the calendar-date complete representation,
 * extended format, of section 4.1.2.2 of ISO 8601:2004 (`YYYY-MM-DD`), with
 * the expanded-year form `+YYYYY…` / `-YYYY…` of section 4.1.2.4 outside the
 * years 0000 to 9999.
 */
module LocalDates {
  import opened Wrappers
  import opened Decimal

  /** The year range of `java.time.Year` (MIN_VALUE, MAX_VALUE). */
  const MinYear: int := -999_999_999
  const MaxYear: int := 999_999_999

  datatype LocalDate = LocalDate(year: int, month: int, day: int)

  /** `IsoChronology.isLeapYear`: divisible by 4, and not by 100 unless by 400. */
  predicate IsLeapYear(year: int) {
    year % 4 == 0 && (year % 100 != 0 || year % 400 == 0)
  }

  function LengthOfMonth(year: int, month: int): (n: int)
    ensures 28 <= n <= 31
  {
    if month == 2 then (if IsLeapYear(year) then 29 else 28)
    else if month == 4 || month == 6 || month == 9 || month == 11 then 30
    else 31
  }

  predicate IsValidDate(d: LocalDate) {
    && MinYear <= d.year <= MaxYear
    && 1 <= d.month <= 12
    && 1 <= d.day <= LengthOfMonth(d.year, d.month)
  }

  /** The dates a `LocalDate` object can hold. */
  type Date = d: LocalDate | IsValidDate(d) witness LocalDate(1970, 1, 1)

  /**
   * The year field of ISO_LOCAL_DATE: at least four digits, zero padded;
   * a sign only when needed (always for negative years, `+` for years over
   * four digits).
   */
  function YearText(year: int): string {
    if 0 <= year <= 9999 then PadZeros(NatToDigits(year), 4)
    else if year > 9999 then "+" + NatToDigits(year)
    else "-" + PadZeros(NatToDigits(-year), 4)
  }

  lemma FourDigitYear(year: int)
    ensures 0 <= year <= 9999 ==> |YearText(year)| == 4 && AllDigits(YearText(year))
  {
    if 0 <= year <= 9999 {
      DigitsLengthUpper(year, 4);
    }
  }

  function TwoDigits(n: nat): (s: string)
    requires n < 100
    ensures |s| == 2 && AllDigits(s)
  {
    DigitsLengthUpper(n, 2);
    PadZeros(NatToDigits(n), 2)
  }

  /** `localDate.format(DateTimeFormatter.ISO_DATE)`. */
  function FormatIsoDate(d: Date): (s: string)
    ensures 0 <= d.year <= 9999 ==>
      && |s| == 10 && s[4] == '-' && s[7] == '-'
      && AllDigits(s[..4]) && AllDigits(s[5..7]) && AllDigits(s[8..])
  {
    FourDigitYear(d.year);
    YearText(d.year) + "-" + TwoDigits(d.month) + "-" + TwoDigits(d.day)
  }

  /**
   * The year field as strict ISO parsing reads it: exactly four digits
   * without sign, `+` followed by more than four digits, or `-` followed by
   * at least four digits; at most ten digits in all.
   */
  function ParseYear(t: string): Option<int> {
    if |t| == 4 && AllDigits(t) then Some(DigitsToNat(t))
    else if 6 <= |t| <= 11 && t[0] == '+' && AllDigits(t[1..]) then Some(DigitsToNat(t[1..]))
    else if 5 <= |t| <= 11 && t[0] == '-' && AllDigits(t[1..]) && DigitsToNat(t[1..]) != 0 then
      (var n: int := DigitsToNat(t[1..]); Some(-n))
    else None
  }

  /** `LocalDate.parse(text)`: `None` where Java throws DateTimeParseException. */
  function ParseIsoDate(s: string): (r: Option<Date>)
    ensures |s| < 10 ==> r.None?
    ensures r.Some? ==> IsValidDate(r.value)
    ensures r.Some? ==> s[|s| - 6] == '-' && s[|s| - 3] == '-'
    ensures r.Some? ==>
      && AllDigits(s[|s| - 5..|s| - 3]) && AllDigits(s[|s| - 2..])
      && r.value.month == DigitsToNat(s[|s| - 5..|s| - 3]) && r.value.day == DigitsToNat(s[|s| - 2..])
  {
    if |s| < 10 then None
    else
      var n := |s|;
      var yearText, monthText, dayText := s[..n - 6], s[n - 5..n - 3], s[n - 2..];
      if s[n - 6] != '-' || s[n - 3] != '-' || !AllDigits(monthText) || !AllDigits(dayText) then None
      else match ParseYear(yearText)
        case None => None
        case Some(year) =>
          var d := LocalDate(year, DigitsToNat(monthText), DigitsToNat(dayText));
          if IsValidDate(d) then Some(d) else None
  }

  lemma YearRoundTrip(year: int)
    requires MinYear <= year <= MaxYear
    ensures ParseYear(YearText(year)) == Some(year)
  {
    if 0 <= year <= 9999 {
      FourDigitYearRoundTrip(year);
    } else if year > 9999 {
      PositiveYearRoundTrip(year);
    } else {
      NegativeYearRoundTrip(year);
    }
  }

  lemma FourDigitYearRoundTrip(year: int)
    requires 0 <= year <= 9999
    ensures ParseYear(YearText(year)) == Some(year)
  {
    DigitsLengthUpper(year, 4);
    PadZerosValue(NatToDigits(year), 4);
    DigitsRoundTrip(year);
  }

  lemma PositiveYearRoundTrip(year: int)
    requires 9999 < year <= MaxYear
    ensures ParseYear(YearText(year)) == Some(year)
  {
    var t := YearText(year);
    var digits := NatToDigits(year);
    assert t == "+" + digits;
    DigitsLengthLower(year, 4);
    DigitsLengthUpper(year, 10);
    assert t[1..] == digits;
    DigitsRoundTrip(year);
    assert !AllDigits(t) by { assert !IsDigit(t[0]); }
  }

  lemma NegativeYearRoundTrip(year: int)
    requires MinYear <= year < 0
    ensures ParseYear(YearText(year)) == Some(year)
  {
    var digits := NatToDigits(-year);
    var p := PadZeros(digits, 4);
    assert YearText(year) == "-" + p;
    DigitsLengthUpper(-year, 10);
    PadZerosValue(digits, 4);
    DigitsRoundTrip(-year);
    ReadNegativeYear(p, -year);
  }

  /** A minus sign followed by four to ten digits reads as the negated value, unless that is zero. */
  lemma ReadNegativeYear(p: string, v: nat)
    requires 4 <= |p| <= 10 && AllDigits(p) && DigitsToNat(p) == v && v != 0
    ensures ParseYear("-" + p) == Some(-(v as int))
  {
    var t := "-" + p;
    assert t[1..] == p;
    assert !IsDigit(t[0]);
  }

  lemma TwoDigitsRoundTrip(n: nat)
    requires n < 100
    ensures DigitsToNat(TwoDigits(n)) == n
  {
    PadZerosValue(NatToDigits(n), 2);
    DigitsRoundTrip(n);
  }

  /** Parsing what ISO_DATE wrote gives back the same date. */
  lemma {:induction false} ParseFormatRoundTrip(d: Date)
    ensures ParseIsoDate(FormatIsoDate(d)) == Some(d)
  {
    var y, m, dd := YearText(d.year), TwoDigits(d.month), TwoDigits(d.day);
    assert |y| >= 4 by {
      if !(0 <= d.year <= 9999) {
        if d.year > 9999 { DigitsLengthLower(d.year, 4); }
      }
    }
    IsoPieces(y, m, dd);
    YearRoundTrip(d.year);
    TwoDigitsRoundTrip(d.month);
    TwoDigitsRoundTrip(d.day);
  }

  /** Where the fields of `year-month-day` sit, counted from the end as the parser reads them. */
  lemma IsoPieces(y: string, m: string, dd: string)
    requires |y| >= 4 && |m| == 2 && |dd| == 2
    ensures var s := y + "-" + m + "-" + dd;
      && |s| == |y| + 6 && |s| >= 10
      && s[|s| - 6] == '-' && s[|s| - 3] == '-'
      && s[..|s| - 6] == y && s[|s| - 5..|s| - 3] == m && s[|s| - 2..] == dd
  {
  }

  /** Two different dates never render to the same text. */
  lemma FormatInjective(a: Date, b: Date)
    requires FormatIsoDate(a) == FormatIsoDate(b)
    ensures a == b
  {
    ParseFormatRoundTrip(a);
    ParseFormatRoundTrip(b);
  }
}

=== FILE: pg_result_transformer.dfy ===
/**
 * Turning a PostgreSQL result into a JSON array: one object per row, in
 * row order; a null column gives no key; `publication_date` is renamed
 * `publicationDate`; dates, date-times and UUIDs become strings.
 */
module PgResultTransformer {
  import opened Wrappers
  import opened LocalDates
  import opened Json

  /** A row, by column name. */
  type Row = map<string, Value>

  /** `PgResult<Row>`: the column names and the rows in the order they arrive. */
  datatype PgResult = PgResult(columnsNames: seq<string>, rows: seq<Row>)

  /** `row.getValue(columnName)`: null for a column the row does not have. */
  function GetValue(row: Row, columnName: string): Value {
    if columnName in row then row[columnName] else Null
  }

  /** `processLocalDate`: the ISO text, which reads back as the same date. */
  function ProcessLocalDate(localDate: LocalDates.Date): (s: string)
    ensures ParseIsoDate(s) == Some(localDate)
  {
    ParseFormatRoundTrip(localDate);
    FormatIsoDate(localDate)
  }

  /**
   * `processType`: the value a JSON object can hold. Dates become their ISO
   * text; date-times and UUIDs their library text; everything else passes
   * through unchanged.
   */
  function ProcessType(value: Value): (r: Value)
    ensures IsJsonType(r)
    ensures IsJsonType(value) ==> r == value
    ensures value.Date? ==> r.Str? && ParseIsoDate(r.s) == Some(value.date)
  {
    match value
    case Date(d) => Str(ProcessLocalDate(d))
    case DateTime(text) => Str(text)
    case Uuid(text) => Str(text)
    case _ => value
  }

  /** `coordinateKeys`: the storage name `publication_date` becomes `publicationDate`; no other name changes. */
  function CoordinateKeys(columnName: string): (key: string)
    ensures key != "publication_date"
    ensures columnName == "publication_date" ==> key == "publicationDate"
    ensures columnName != "publication_date" ==> key == columnName
  {
    if columnName == "publication_date" then "publicationDate" else columnName
  }

  /** The object the inner loop builds for `row` after visiting `columns`. */
  function RowObject(columns: seq<string>, row: Row): JsonObject
    decreases |columns|
  {
    if columns == [] then []
    else
      var previous := RowObject(columns[..|columns| - 1], row);
      var columnName := columns[|columns| - 1];
      var value := GetValue(row, columnName);
      if value == Null then previous
      else Put(previous, CoordinateKeys(columnName), ProcessType(value))
  }

  /** `toJsonArray(pgResult)`. */
  method ToJsonArray(pgResult: PgResult) returns (jsonArray: seq<JsonObject>)
    ensures |jsonArray| == |pgResult.rows|
    ensures forall i :: 0 <= i < |jsonArray| ==> jsonArray[i] == RowObject(pgResult.columnsNames, pgResult.rows[i])
  {
    jsonArray := [];
    var columnNames := pgResult.columnsNames;
    for i := 0 to |pgResult.rows|
      invariant |jsonArray| == i
      invariant forall k :: 0 <= k < i ==> jsonArray[k] == RowObject(columnNames, pgResult.rows[k])
    {
      var row := pgResult.rows[i];
      var currentRow: JsonObject := [];
      for j := 0 to |columnNames|
        invariant currentRow == RowObject(columnNames[..j], row)
      {
        assert columnNames[..j + 1][..j] == columnNames[..j];
        var columnName := columnNames[j];
        var value := GetValue(row, columnName);
        if value == Null {
          continue;
        }
        value := ProcessType(value);
        var key := CoordinateKeys(columnName);
        currentRow := Put(currentRow, key, value);
      }
      assert columnNames[..|columnNames|] == columnNames;
      jsonArray := jsonArray + [currentRow];
    }
  }

  /** Renaming twice is renaming once. */
  lemma CoordinateKeysIdempotent(columnName: string)
    ensures CoordinateKeys(CoordinateKeys(columnName)) == CoordinateKeys(columnName)
  {
  }

  /**
   * The keys of a row's object are exactly the renamed names of the columns
   * whose value is not null; no key repeats; every value is a JSON value.
   */
  lemma {:induction false} RowObjectKeys(columns: seq<string>, row: Row)
    ensures Keys(RowObject(columns, row)) == NonNullKeys(columns, row)
    ensures DistinctKeys(RowObject(columns, row))
    ensures forall e :: e in RowObject(columns, row) ==> IsJsonType(e.value)
    decreases |columns|
  {
    if columns != [] {
      var init := columns[..|columns| - 1];
      var last := columns[|columns| - 1];
      RowObjectKeys(init, row);
      NonNullKeysLast(columns, row);
      var previous := RowObject(init, row);
      var value := GetValue(row, last);
      if value != Null {
        PutKeys(previous, CoordinateKeys(last), ProcessType(value));
        PutDistinct(previous, CoordinateKeys(last), ProcessType(value));
        PutValues(previous, CoordinateKeys(last), ProcessType(value));
      }
    }
  }

  /** The renamed names of the columns whose value in `row` is not null. */
  function NonNullKeys(columns: seq<string>, row: Row): set<string> {
    set c | c in columns && GetValue(row, c) != Null :: CoordinateKeys(c)
  }

  lemma NonNullKeysLast(columns: seq<string>, row: Row)
    requires columns != []
    ensures var last := columns[|columns| - 1];
      NonNullKeys(columns, row)
      == NonNullKeys(columns[..|columns| - 1], row) + (if GetValue(row, last) != Null then {CoordinateKeys(last)} else {})
  {
    var init := columns[..|columns| - 1];
    var last := columns[|columns| - 1];
    forall c | c in columns ensures c in init || c == last {
      var i :| 0 <= i < |columns| && columns[i] == c;
      if i < |columns| - 1 {
        assert init[i] == c;
      }
    }
    forall c | c in init ensures c in columns {
      var i :| 0 <= i < |init| && init[i] == c;
      assert columns[i] == c;
    }
  }

  /** One entry per column, in column order: the renamed name and the processed value. */
  function ColumnEntries(columns: seq<string>, row: Row): (es: seq<Entry>)
    ensures |es| == |columns|
    ensures forall i :: 0 <= i < |columns| ==>
      es[i] == Entry(CoordinateKeys(columns[i]), ProcessType(GetValue(row, columns[i])))
    decreases |columns|
  {
    if columns == [] then []
    else
      var last := columns[|columns| - 1];
      ColumnEntries(columns[..|columns| - 1], row) + [Entry(CoordinateKeys(last), ProcessType(GetValue(row, last)))]
  }

  /**
   * When no column of the row is null and no two columns rename to the
   * same key, the object lists every column once, in column order.
   */
  lemma {:induction false} RowObjectNoNulls(columns: seq<string>, row: Row)
    requires forall i :: 0 <= i < |columns| ==> GetValue(row, columns[i]) != Null
    requires forall i, j :: 0 <= i < j < |columns| ==> CoordinateKeys(columns[i]) != CoordinateKeys(columns[j])
    ensures RowObject(columns, row) == ColumnEntries(columns, row)
    decreases |columns|
  {
    if columns != [] {
      var n := |columns| - 1;
      var init := columns[..n];
      var last := columns[n];
      RowObjectNoNulls(init, row);
      var previous := ColumnEntries(init, row);
      forall e | e in previous ensures e.key != CoordinateKeys(last) {
        var i :| 0 <= i < |previous| && previous[i] == e;
        assert init[i] == columns[i];
      }
      PutAppends(previous, CoordinateKeys(last), ProcessType(GetValue(row, last)));
    }
  }

  lemma PutValues(o: JsonObject, key: string, value: Value)
    requires forall e :: e in o ==> IsJsonType(e.value)
    requires IsJsonType(value)
    ensures forall e :: e in Put(o, key, value) ==> IsJsonType(e.value)
    decreases |o|
  {
    if o != [] && o[0].key != key {
      PutValues(o[1..], key, value);
    }
  }

  /** A column whose value is null contributes no key (unless another column renames to the same key). */
  lemma NullColumnOmitted(columns: seq<string>, row: Row, key: string)
    requires forall c :: c in columns && CoordinateKeys(c) == key ==> GetValue(row, c) == Null
    ensures key !in Keys(RowObject(columns, row))
    ensures Get(RowObject(columns, row), key) == None
  {
    RowObjectKeys(columns, row);
  }

  /**
   * When no other column of the result renames to the same key, the value
   * under a column's key is that column's value after `processType`.
   */
  lemma {:induction false} RowObjectValue(columns: seq<string>, row: Row, c: string)
    requires c in columns
    requires forall d :: d in columns && CoordinateKeys(d) == CoordinateKeys(c) ==> d == c
    ensures Get(RowObject(columns, row), CoordinateKeys(c))
      == if GetValue(row, c) == Null then None else Some(ProcessType(GetValue(row, c)))
    decreases |columns|
  {
    var init := columns[..|columns| - 1];
    var last := columns[|columns| - 1];
    assert columns == init + [last];
    if GetValue(row, last) != Null {
      PutGet(RowObject(init, row), CoordinateKeys(last), ProcessType(GetValue(row, last)));
    }
    if last == c {
      if GetValue(row, c) == Null {
        if c in init {
          RowObjectValue(init, row, c);
        } else {
          NullColumnOmitted(init, row, CoordinateKeys(c));
        }
      }
    } else {
      RowObjectValue(init, row, c);
    }
  }
}

=== FILE: row_collectors.dfy ===
/**
 * The row collectors: a supplier that makes an empty container, an
 * accumulator that appends the mapped row at the end, a combiner that
 * appends the right container onto the left one and returns the left one,
 * and the identity as finisher. `jsonArrayCollector` uses a new `JsonArray`
 * as container, `listCollector` a supplied `List`; both behave the same way,
 * so one container class serves for both.
 */
module RowCollectors {

  /** A growable container: `JsonArray` or `List<T>`. */
  class Container<T> {
    var elements: seq<T>

    /** The supplier: `JsonArray::new` / `ArrayList::new`. */
    constructor ()
      ensures elements == []
    {
      elements := [];
    }

    /** `add(element)`. */
    method Add(element: T)
      modifies this
      ensures elements == old(elements) + [element]
    {
      elements := elements + [element];
    }

    /** `addAll(other)`; `other` may be this very container. */
    method AddAll(other: Container<T>)
      modifies this
      ensures elements == old(elements) + old(other.elements)
    {
      elements := elements + other.elements;
    }
  }

  /** The rows mapped one by one, in their order. */
  function MapRows<R, T>(rowMapper: R -> T, rows: seq<R>): (mapped: seq<T>)
    ensures |mapped| == |rows|
    ensures forall i :: 0 <= i < |rows| ==> mapped[i] == rowMapper(rows[i])
  {
    if rows == [] then [] else MapRows(rowMapper, rows[..|rows| - 1]) + [rowMapper(rows[|rows| - 1])]
  }

  /** The accumulator: `(container, row) -> container.add(rowMapper.apply(row))`. */
  method Accumulate<R, T>(container: Container<T>, rowMapper: R -> T, row: R)
    modifies container
    ensures container.elements == old(container.elements) + [rowMapper(row)]
  {
    container.Add(rowMapper(row));
  }

  /** The combiner: `(left, right) -> { left.addAll(right); return left; }`. */
  method Combine<T>(left: Container<T>, right: Container<T>) returns (combined: Container<T>)
    modifies left
    ensures combined == left
    ensures combined.elements == old(left.elements) + old(right.elements)
  {
    left.AddAll(right);
    combined := left;
  }

  /**
   * A sequential collection into the container `listSupplier` gave: every
   * row accumulated in turn; the finisher is the identity.
   */
  method CollectInto<R, T>(container: Container<T>, rowMapper: R -> T, rows: seq<R>)
    modifies container
    ensures container.elements == old(container.elements) + MapRows(rowMapper, rows)
  {
    ghost var initial := container.elements;
    for i := 0 to |rows|
      invariant container.elements == initial + MapRows(rowMapper, rows[..i])
    {
      assert rows[..i + 1][..i] == rows[..i];
      Accumulate(container, rowMapper, rows[i]);
    }
    assert rows[..|rows|] == rows;
  }

  /**
   * `jsonArrayCollector(rowMapper)` and `listCollector(rowMapper)` (whose
   * supplier is `ArrayList::new`) applied to a sequence of rows: the
   * mapped rows, in input order.
   */
  method Collect<R, T>(rowMapper: R -> T, rows: seq<R>) returns (result: Container<T>)
    ensures fresh(result)
    ensures result.elements == MapRows(rowMapper, rows)
  {
    result := new Container<T>();
    CollectInto(result, rowMapper, rows);
  }

  /**
   * A split collection: the rows before `split` and those after it go into
   * two containers of their own, which the combiner then joins. The result
   * is the one the sequential collection gives.
   */
  method CollectSplit<R, T>(rowMapper: R -> T, rows: seq<R>, split: nat) returns (result: Container<T>)
    requires split <= |rows|
    ensures result.elements == MapRows(rowMapper, rows)
  {
    var left := new Container<T>();
    CollectInto(left, rowMapper, rows[..split]);
    ghost var leftElements := left.elements;
    assert leftElements == MapRows(rowMapper, rows[..split]);
    var right := new Container<T>();
    CollectInto(right, rowMapper, rows[split..]);
    assert left.elements == leftElements;
    result := Combine(left, right);
    assert result.elements == MapRows(rowMapper, rows[..split]) + MapRows(rowMapper, rows[split..]);
    MapRowsAppend(rowMapper, rows[..split], rows[split..]);
    assert rows[..split] + rows[split..] == rows;
  }

  /** Mapping distributes over concatenation: combining partial results in order is sound. */
  lemma {:induction false} MapRowsAppend<R, T>(rowMapper: R -> T, a: seq<R>, b: seq<R>)
    ensures MapRows(rowMapper, a + b) == MapRows(rowMapper, a) + MapRows(rowMapper, b)
    decreases |b|
  {
    if b == [] {
      assert a + b == a;
    } else {
      var init := b[..|b| - 1];
      assert (a + b)[..|a + b| - 1] == a + init;
      MapRowsAppend(rowMapper, a, init);
    }
  }
}

=== FILE: wrappers.dfy ===
/** Java's nullable references, and outcomes that may fail, modelled as explicit values. */
module Wrappers {

  /** `None` stands for Java's `null`. */
  datatype Option<+T> = None | Some(value: T)

  /** A computation of the database that yields a value or an error. */
  datatype Result<+R, +E> = Success(value: R) | Failure(error: E)
}
